=== FILE: README.md ===
# PushCampus decision core in Dafny

This project models the parts of the PushCampus web application that decide things. The rest of the application is UI composition and thin RPC wrappers. The modelled parts are:

- **Platform-fee quoting** (`PlatformFee`). The fixed USD subscription price is converted into an amount of the token the user's origin chain pays with. The result is a quote whose transaction parameters send that amount to the treasury: either a native `value` transfer or a `funds` transfer of a wallet-registry token. When pricing fails, the quote falls back to reading the USD figure as a PC amount. This module also holds the payment-config table, the treasury guard and the 60-second read-through price cache.
- **Display price client** (`DisplayPrices`). A 10-minute USD price cache with de-duplication of pending requests. The module-level `priceCache` and `inFlight` maps are an explicit state. Issuing a request and settling it are separate transitions, and each pending request is a ticket that stands for the shared promise.
- **Configuration** (`Config`). The RPC URL list, the positive-integer settings with their 30-day and 1-day defaults, and the other environment settings with their defaults.
- **Price label** (`PriceLabel`). Chooses between a free label, a USD label and a token label, and adds the cadence suffix when asked.
- **Join flow** (`JoinGroup`). The preflight (`prepareJoin`), the join (`finalizeJoin`) and the click handler (`handleJoin`) of the join button, taken out of the React component as pure functions from inputs to outcomes.
- **Renewal** (`RenewSubscription`). The guard order, the balance check and the transfer of `renew`.
- **USD rate hook** (`TokenUsdRate`). The initial rate, the `refresh` state transitions and the auto-fetch condition.
- **Member card** (`MemberCard`). Avatar initials, the heading and the owner badge.

There are also small shared modules:

- `Outcomes`: Option, Result, and Attempt (a call outside the model that returned or threw).
- `Js`: JavaScript numbers with NaN and the infinities, plus `trim`, `split`, `filter(Boolean)`, `slice` and `toUpperCase`.
- `PriceFeed`: the price API's answer.
- `NativeToken`: `parseNativeTokenAmount` over injected SDK unit helpers.

Some operations are not modelled directly but enter as inputs. The unmodelled operations are the float division, `toFixed`, `Number(string)`, the SDK's `parseUnits`/`formatUnits` and the `Intl` formatters. Each of these is a function-typed field of a record passed as a parameter (`UnitCodec`, `Formatters`). This keeps their results uninterpreted while still verifying the branch structure around them. Clocks, HTTP answers, RPC results and mutation results are also parameters.

Some behaviours of `src/lib/pricing/platform-fee.ts` are worth stating plainly:

- `resolvePlatformFeeQuote` keeps no cache of quotes (only of prices), and it does not check the payer's balance; the join and renewal flows check balances themselves.
- `fetchCoingeckoPrice` rejects only non-number and non-finite payloads. It caches a finite non-positive price for 60 s, and the positivity check that sends the quote to the fallback comes later, in `calculateAmountFromUsd`. `PlatformFee.NonPositivePriceFallsBack` states this.
- `getPaymentConfig` treats an unset origin like a push chain. The quote builder's push-chain test (`PUSH_CHAIN_IDS.has(originChain ?? '')`) does not. So a missing origin is priced with the PC price, has no token accessor, and always ends in the fallback quote (`PlatformFee.NonTableOriginsFallBack`).
- The fallback quote is not cached.

## Model

| member | source | states |
|---|---|---|
| Js.Trim | src/lib/config.ts:29 | the trimmed text has no whitespace at either end and is empty exactly when the input is all whitespace |
| Js.TrimIsInfix | src/lib/config.ts:29 | trimming removes only whitespace, and only from the two ends of the entry |
| Js.JoinSplit | src/lib/config.ts:27-28 | joining the comma-split pieces with commas gives back the raw setting, so splitting loses and invents nothing |
| Js.NonEmptyKeeps | src/lib/config.ts:30 | `filter(Boolean)` keeps every non-empty entry |
| Js.NonEmptyEmptyIff | src/lib/config.ts:30-31 | the filtered list is empty exactly when every entry is empty |
| Js.Split | src/lib/config.ts:28 | the pieces are at least one and none contains the separator; with `Js.JoinSplit` this pins down `split` on one character |
| Js.SplitAfterWord | src/lib/config.ts:28 | a separator-free word followed by the separator splits off as the first piece, and the rest splits on its own |
| Js.NonEmpty | src/features/groups/components/group-member-card.tsx:19 | the kept entries are non-empty entries of the input, no more of them than the input has; with `Js.NonEmptyConcat` and `Js.NonEmptySingleton` the filter keeps the order and multiplicity of what it keeps |
| Js.NonEmptySingleton | src/lib/config.ts:30 | one entry is kept exactly when it is non-empty |
| Js.NonEmptyConcat | src/lib/config.ts:30 | filtering a concatenation is the concatenation of the filtered parts, so the filter works entry by entry and in order |
| Js.MapSeq | src/lib/config.ts:29 | `map` keeps the length and applies the function to each entry at its own position |
| Js.Slice | src/features/groups/components/group-member-card.tsx:25 | `slice` with non-negative bounds clamps them to the length and yields exactly the characters between them |
| Js.UpperChar | src/features/groups/components/group-member-card.tsx:21 | a letter a to z becomes the matching capital, any other character is unchanged |
| Js.ToUpper | src/features/groups/components/group-member-card.tsx:25 | upper-casing keeps the length and maps each character on its own |
| Config.ParseRpcUrls | src/lib/config.ts:20-31 | the URL list is never empty and has no empty entry; a blank setting, or one with only blank entries, gives the two default nodes; otherwise it is the trimmed non-empty entries in order |
| Config.RpcUrlsComeFromSetting | src/lib/config.ts:25-31 | every URL is a trimmed comma-separated entry of the setting, and every non-blank entry is kept |
| Config.RpcUrlsDefaultIff | src/lib/config.ts:25-31 | a non-empty setting falls back to the defaults exactly when all its entries are whitespace |
| Config.PushRpcUrl | src/lib/config.ts:34-36 | the primary RPC URL always exists, is non-empty, and is the first of the list |
| Config.FirstEntryIsPrimary | src/lib/config.ts:25-36 | when the first comma-separated entry of the setting is not blank, the primary RPC URL is that entry trimmed |
| Config.ParsePositiveInt | src/lib/config.ts:74-79 | blank, non-finite or non-positive input gives the fallback; otherwise the result is the non-negative integer part of the number, which is 0 for values in (0, 1) |
| Config.Resolve | src/lib/config.ts:16-89 | the RPC list is the parsed setting and the primary URL its first entry; every `??` setting takes a present variable as it is, even empty, and its default ('', '99', 'PC', the explorer URL) only when absent; the chain id is the parsed setting or 42101; both durations are the positive-integer parse of their setting with the 30-day and 1-day defaults, so never negative |
| Config.DefaultDurations | src/lib/config.ts:71-72 | the default membership lasts 2592000 s (30 days) and the cooldown is 86400 s (1 day) |
| NativeToken.ParseNativeTokenAmount | src/lib/native-token.ts:17-25 | an all-whitespace amount is 0 base units; otherwise the trimmed text is parsed with 18 decimals, and a parse failure propagates |
| PlatformFee.ChainClassesPartition | src/lib/pricing/platform-fee.ts:50-106 | every named SDK chain is either a push chain or has a payment-table entry, never both |
| PlatformFee.TableEntriesHaveAccessors | src/lib/pricing/platform-fee.ts:57-112 | every table entry has a token accessor and a non-PC symbol; SOL entries use 9 decimals and the others 18 |
| PlatformFee.GetPaymentConfig | src/lib/pricing/platform-fee.ts:155-163 | unset, empty, push-chain and unknown origins get the default PC config; a table chain gets exactly its entry; a token accessor is present exactly for table chains |
| PlatformFee.FetchCoingeckoPrice | src/lib/pricing/platform-fee.ts:122-153 | a fresh entry (expiry strictly after now) is served with the cache unchanged; otherwise the result succeeds exactly for a finite numeric payload, which is stored until settlement + 60000 ms; failures leave the cache unchanged; other ids are never touched |
| PlatformFee.FetchedPriceServedUntilExpiry | src/lib/pricing/platform-fee.ts:123-150 | after a fetch settles at t, any lookup before t + 60 s gets that price, and any lookup from t + 60 s on depends on a new answer |
| PlatformFee.FixedDigits | src/lib/pricing/platform-fee.ts:178 | the number of fraction digits is at most 8 and at most the token's decimals, and equals one of them |
| PlatformFee.CalculateAmountFromUsd | src/lib/pricing/platform-fee.ts:165-182 | an amount is produced exactly when the price is available and positive and its fixed-point quotient parses; a non-positive price fails with its own error; the cache effect is that of the price fetch |
| PlatformFee.ResolveMoveableToken | src/lib/pricing/platform-fee.ts:184-199 | a token is found exactly when there is a client, an accessor, a registry and an entry for the accessor, and then it is that entry |
| PlatformFee.EnsureTreasuryAddress | src/lib/pricing/platform-fee.ts:201-207 | a provided address, even an empty one, wins over the configured one; the guard fails, with the configuration error, exactly when the chosen address is empty |
| PlatformFee.FormatTokenAmount | src/lib/pricing/platform-fee.ts:114-120 | the display text is the amount formatted with `min(decimals, 6)` fraction digits, then a space and the symbol |
| PlatformFee.DisplayPrecision | src/lib/pricing/platform-fee.ts:117 | the fraction digits shown are at most 6 and at most the token's decimals, and equal one of them |
| PlatformFee.NativeQuote | src/lib/pricing/platform-fee.ts:225-237 | a native quote is well formed and transfers the amount as `value` |
| PlatformFee.FallbackQuote | src/lib/pricing/platform-fee.ts:260-277 | the fallback is a well-formed PC quote with 18 decimals, sends the parsed USD figure as `value`, and fails only when that figure does not parse |
| PlatformFee.ResolvePlatformFeeQuote | src/lib/pricing/platform-fee.ts:209-279 | an empty treasury fails before any price lookup; every quote carries the same USD amount, goes to the chosen treasury, moves exactly its `amount` by `value` or by `funds` (never both), and displays that amount formatted and followed by its symbol; `funds` quotes only arise for table chains with their registry token; `value` quotes are always in PC with 18 decimals; the only other escaping error is an unparseable fallback |
| PlatformFee.PushOriginGetsNativeValue | src/lib/pricing/platform-fee.ts:225-237 | with pricing successful, a push-chain origin gets a PC `value` transfer of the priced amount, no `funds`, and the PC display of that amount |
| PlatformFee.ExternalOriginGetsFunds | src/lib/pricing/platform-fee.ts:240-259 | with pricing successful and the token resolved, a non-push origin gets a `funds` transfer of the priced amount in that token, no `value`, and the display of that amount in the chain's symbol |
| PlatformFee.FailuresFallBack | src/lib/pricing/platform-fee.ts:240-277 | failed pricing, or an unresolved token for a non-push origin, gives exactly the fallback quote |
| PlatformFee.NonTableOriginsFallBack | src/lib/pricing/platform-fee.ts:225-243 | an origin that is neither a push chain nor a table chain, including a missing one, always gets the fallback quote |
| PlatformFee.NonPositivePriceFallsBack | src/lib/pricing/platform-fee.ts:147-177 | a finite non-positive price is still cached, and the quote falls back |
| DisplayPrices.GetCachedUsdPrice | src/lib/pricing/coingecko.ts:42-48 | a price is returned exactly while its entry expires strictly after now, and it is the stored value |
| DisplayPrices.GetUsdPrice | src/lib/pricing/coingecko.ts:50-68 | a fresh price is returned and nothing changes; otherwise the caller joins the pending request for the id, and only when there is none is a new request with a fresh ticket started; the cache never changes, and other ids' pending requests are untouched |
| DisplayPrices.GetUsdPricePreservesValid | src/lib/pricing/coingecko.ts:50-68 | a call keeps cached prices positive and pending tickets distinct and already issued |
| DisplayPrices.AcceptedPrice | src/lib/pricing/coingecko.ts:28-32 | a payload is accepted exactly when it is a finite number above zero |
| DisplayPrices.Settle | src/lib/pricing/coingecko.ts:13-40 | the settled request yields the accepted price or null; only an accepted price is cached, until now + 600000 ms; the id's pending entry, and only it, is removed whether the request succeeded or failed |
| DisplayPrices.SettlePreservesValid | src/lib/pricing/coingecko.ts:29-65 | settling keeps cached prices positive and pending tickets distinct |
| DisplayPrices.SettledPriceLifetime | src/lib/pricing/coingecko.ts:34-48 | a settled price is served exactly before settlement + 10 min, and cached prices of other ids are unaffected |
| DisplayPrices.PendingSurvives | src/lib/pricing/coingecko.ts:56-66 | a pending request is removed only by its own settlement |
| DisplayPrices.AtMostOneRequestUntilSettled | src/lib/pricing/coingecko.ts:56-66 | over any run of calls and other ids' settlements, at most one request for an id is started until it settles, and none while one is pending |
| TokenUsdRate.FiniteFallback | src/hooks/use-token-usd-rate.ts:21-23 | the fallback is used exactly when it is a finite number |
| TokenUsdRate.Initial | src/hooks/use-token-usd-rate.ts:17-28 | the initial rate is the fresh cached price if any, else the finite fallback, else none; not loading, no error |
| TokenUsdRate.BeginRefresh | src/hooks/use-token-usd-rate.ts:30-31 | a refresh starts loading with the error cleared and the rate kept |
| TokenUsdRate.FinishRefresh | src/hooks/use-token-usd-rate.ts:32-55 | a truthy finite price becomes the rate and is returned; a missing or zero price sets and returns the finite fallback or null; a rejection records the error message (or the default one), returns the fallback, and keeps the old rate when there is no fallback; loading always ends |
| TokenUsdRate.Refresh | src/hooks/use-token-usd-rate.ts:29-55 | a refresh ends not loading, records an error exactly on rejection, and leaves the rate equal to its return value, except after a rejection with no fallback |
| TokenUsdRate.ShouldAutoFetch | src/hooks/use-token-usd-rate.ts:58-62 | auto-fetch fires exactly when enabled and no rate is set |
| TokenUsdRate.RefreshFromDisplayPrice | src/hooks/use-token-usd-rate.ts:33-43 | fed by the display-price client, a refresh sets the positive price it gets or the fallback on null, and records no error |
| TokenUsdRate.InitialFromDisplayCache | src/hooks/use-token-usd-rate.ts:18-20 | a fresh display-cache entry wins over the fallback for the initial rate |
| PriceLabel.AmountLabel | src/features/groups/utils/price.ts:26-30 | a usable USD rate (a number above zero) gives the USD text of price times rate; otherwise the token text, a space and the native symbol |
| PriceLabel.CadenceLabel | src/features/groups/utils/price.ts:34 | the suffix is 'free' exactly for the free cadence, and 'month' for a monthly or missing one |
| PriceLabel.FormatGroupPriceLabel | src/features/groups/utils/price.ts:17-36 | free groups read 'Free', or 'Join for free' without cadence; cadence shown by default; non-free labels are the amount alone without cadence, and the amount with '/month' with it |
| PriceLabel.CadenceLabelsDistinguishFree | src/features/groups/utils/price.ts:22-35 | with the default cadence the label is 'Free' exactly for free groups, and every other label ends in '/month' |
| PriceLabel.TokenLabelShape | src/features/groups/utils/price.ts:26-35 | without a usable rate, a priced label ends with the native symbol, followed by '/month' when cadence is shown |
| MemberCard.Words | src/features/groups/components/group-member-card.tsx:18-19 | every word is non-empty and contains no space |
| MemberCard.FirstLetters | src/features/groups/components/group-member-card.tsx:21-22 | one upper-cased first letter per word, in order |
| MemberCard.GetInitials | src/features/groups/components/group-member-card.tsx:15-26 | with a non-empty display name, the initials are the upper-cased first letters of its first at most two words; otherwise the upper-cased characters 2 and 3 of the wallet address; never more than two characters |
| MemberCard.SplitWithoutSeparator | src/features/groups/components/group-member-card.tsx:18 | a name without spaces splits into itself |
| MemberCard.SplitOfSeparators | src/features/groups/components/group-member-card.tsx:18-19 | a name of spaces splits into empty pieces only |
| MemberCard.SingleWordInitial | src/features/groups/components/group-member-card.tsx:16-23 | a one-word name gives its upper-cased first letter |
| MemberCard.TwoWordInitials | src/features/groups/components/group-member-card.tsx:16-22 | a two-word name gives the upper-cased first letters of both words, in the order of the name |
| MemberCard.AllSpaceNameHasNoInitials | src/features/groups/components/group-member-card.tsx:16-23 | a name of only spaces gives empty initials, not the wallet fallback |
| MemberCard.Card | src/features/groups/components/group-member-card.tsx:31-46 | the owner badge shows exactly when the group's owner id is the member's id; the heading is the display name when present (even empty), else the wallet |
| RenewSubscription.Guard | src/features/groups/hooks/use-renew-subscription.ts:35-43 | the group, then the wallet, then the treasury are checked, in that order, and all three pass exactly when each is present |
| RenewSubscription.Renew | src/features/groups/hooks/use-renew-subscription.ts:34-76 | a failing guard throws before any read or flag change; past the guards the balance is read and the transacting flag is raised; the flag is always reset; a failed balance read is rethrown and a short balance throws, both without calling `sendTransaction`; a funded renewal calls `sendTransaction` with exactly the price to the treasury, and a failure of that send, of its mining or of the mutation is rethrown; no other transaction is ever requested; success reports the mined hash and the mutation's end date |
| RenewSubscription.RenewSucceedsIff | src/features/groups/hooks/use-renew-subscription.ts:55-73 | past the guards with enough balance, renewal succeeds exactly when the transaction and the mutation succeed, and an empty mutation result gives a null end date |
| JoinGroup.View | src/features/groups/components/join-group-button.tsx:78-88 | owners get the disabled button, members the leave flow, and only non-owner non-members reach the join flow |
| JoinGroup.PaidGuard | src/features/groups/components/join-group-button.tsx:114-131 | a paid join needs a marketplace address, then a non-zero course id, then the membership service, checked in that order; it passes exactly when all three are there |
| JoinGroup.SkipDecision | src/features/groups/components/join-group-button.tsx:133-169 | payment is skipped exactly for an active on-chain pass or a stored expiry in the future; the on-chain expiry takes precedence, and a failed check is swallowed |
| JoinGroup.PrepareJoin | src/features/groups/components/join-group-button.tsx:90-198 | wallet, owner wallet and public client are checked in order, and each of those stops happens exactly at its own failed check; past them a free join is prepared at once, reading nothing and costing 0; a paid join stops at the first failing paid guard before any read, is prepared without payment exactly for an active or stored pass, and otherwise stops, in order, on an unparseable price (an exception), a missing wallet client, a failed balance read (an exception) or a short balance, and is prepared with the parsed price when none of these happens |
| JoinGroup.MarketplaceServiceGuardUnreachable | src/features/groups/components/join-group-button.tsx:66-130 | the 'marketplace service unavailable' stop can never happen, because that service exists whenever its address, already required, is set |
| JoinGroup.FinalizeJoin | src/features/groups/components/join-group-button.tsx:213-290 | a purchase happens only for a join that pays, for exactly the prepared course and amount, and always when its contracts and course are configured; without them a paying join stops with nothing bought and nothing recorded; a paying join is recorded only after a purchase whose pass balance is confirmed positive, and then with its hash and the read-back expiry (else the prepared one); a purchase that went through but whose pass is not confirmed ends in its own outcome, and a failed purchase ends in the generic failure with nothing recorded; a join that does not pay is recorded at once with no hash and its prepared pass state; the join ends joined exactly when something was recorded and the mutation succeeded |
| JoinGroup.HandleJoin | src/features/groups/components/join-group-button.tsx:301-327 | a click is ignored while preparing or finalizing; a preflight stop ends the click with its reason, and an exception thrown by the preflight escapes the handler; a prepared join that pays opens the confirmation for exactly that preparation, and every other prepared join is finalized at once |
| JoinGroup.ConfirmJoin | src/features/groups/components/join-group-button.tsx:350-357 | confirming with no pending join only closes the dialog; otherwise it finalizes the pending join |
| JoinGroup.ConfirmedPaidJoinPaysThePrice | src/features/groups/components/join-group-button.tsx:171-239 | a confirmed paid join buys the course for exactly the parsed group price, which the preflight found covered by the balance |
| JoinGroup.FreeJoinRecordsWithoutPayment | src/features/groups/components/join-group-button.tsx:106-107 | a free group is joined at once with no purchase, no hash and no active pass |
| JoinGroup.PaidJoinEndToEnd | src/features/groups/components/join-group-button.tsx:171-279 | a funded paid join without a pass, past every guard, opens the confirmation; confirmed, it buys the course for the parsed price and, once the chain shows the pass, records the member with the purchase hash; it ends joined exactly when the join mutation succeeds |
| JoinGroup.PassHolderJoinsWithoutPaying | src/features/groups/components/join-group-button.tsx:133-169 | a holder of an active or stored pass is joined to a paid group at once, with an active pass, no purchase and no hash |

## Left out

- Float arithmetic and SDK unit helpers: `usd / price`, `toFixed`, `Number(string)`, `toString`, `parseUnits` and `formatUnits` are injected functions (`NativeToken.UnitCodec`), so no numeric value of a priced amount is computed.
- `Intl.NumberFormat` and date formatting are injected string functions (`PriceLabel.Formatters`) or left out (the member card's join date).
- Network and RPC (`fetch`, `getBalance`, `readContract`, `sendTransaction`, the pass reads) are inputs: `PriceFeed.HttpOutcome` and `Outcomes.Attempt` values.
- Promises and concurrency: a pending display-price request is a ticket in the state. Settling is one atomic transition that stores the price and then drops the pending entry. No interleaving inside it is modelled.
- React plumbing (rendering, hooks, dialogs, toasts, Convex mutations) is left out. Only the decisions inside them are modelled.
- PlatformFee.GetPaymentConfig: origins are SDK chain strings or other strings that select the default. An origin naming an `Object.prototype` member (such as 'constructor' or '__proto__') makes the table lookup return that member instead of the default, and the quote then prices an undefined id. The model does not cover this; the application only passes SDK chain strings.
- PlatformFee.SdkChain: the SDK's chain-id strings are not visible, so they are named constructors of a datatype. Any other string is `Unlisted`. This assumes the SDK constants are distinct and non-empty.
- MemberCard.GetInitials: upper-casing is modelled for the letters a to z only. The full Unicode case mapping (which can lengthen a string, for example 'ß' to 'SS') and UTF-16 code units are not modelled.
- JoinGroup.FinalizeJoin: the UI flags reset in its `finally` (`isFinalizing`, `pendingJoin`, `confirmationOpen`) and the toasts are not modelled. The thrown errors are collapsed into `JoinFailed`.
- JoinGroup.HandleJoin: the USD-rate refresh before the confirmation opens is not modelled (its errors are swallowed), and neither is the `isPreparing` flag.
- The leave flow (`LeaveGroupButton`: leave mutation, pass-expiry lookup) is not modelled beyond the button choosing it.
- RenewSubscription.Renew: the `isMutating` half of `isRenewing` is not modelled. Sending and mining are one outcome: `RenewRun.sent` records the transaction `sendTransaction` was called with, and a rejected send and a failed `wait` both count as a failed transaction.
- `resolveMembershipCourseId` and `normalizePassExpiry` are not part of this model. Their results are inputs (`JoinContext.courseId`, `PassCheck.expiryMs`, `PassState.expiryMs`).
- On-chain service classes, the wallet/provider hooks, the UI pages, the deployment scripts and the Solidity contracts are thin wrappers or tooling and are left out.
- Integer widths: token amounts are unbounded integers, matching `bigint`. Clock readings are unbounded integers, matching millisecond timestamps, which stay far inside the exact range of a double.

=== FILE: config.dfy ===
/** Environment-driven configuration: the Push Chain RPC list, the contract and
    treasury addresses, the subscription prices and the membership durations.
    The environment is an explicit record of optional strings. */
module Config {
  import opened Outcomes
  import opened Js

  const DefaultPushChainId: int := 42101

  const DefaultPushRpcUrls: seq<string> := [
    "https://evm.rpc-testnet-donut-node1.push.org",
    "https://evm.rpc-testnet-donut-node2.push.org"
  ]

  const DefaultMembershipDurationSeconds: int := 60 * 60 * 24 * 30
  const DefaultMembershipTransferCooldownSeconds: int := 60 * 60 * 24

  const DefaultSubscriptionPrice: string := "99"
  const DefaultNativeTokenSymbol: string := "PC"
  const NativeTokenDecimals: nat := 18

  /** `!value` for a `string | undefined`: absent or the empty string. */
  predicate Blank(value: Option<string>) {
    value == None || value == Some([])
  }

  /** The trimmed, non-empty comma-separated entries of `s`, in order. */
  function RpcEntries(s: string): seq<string> {
    NonEmpty(MapSeq(Split(s, ','), Trim))
  }

  /** `parseRpcUrls`: the comma-separated list, trimmed and without empty
      entries, or the two default nodes when that list would be empty. */
  function ParseRpcUrls(value: Option<string>): (urls: seq<string>)
    ensures |urls| > 0
    ensures forall k :: 0 <= k < |urls| ==> urls[k] != []
    ensures Blank(value) ==> urls == DefaultPushRpcUrls
    ensures !Blank(value) && RpcEntries(value.value) != [] ==> urls == RpcEntries(value.value)
    ensures !Blank(value) && RpcEntries(value.value) == [] ==> urls == DefaultPushRpcUrls
  {
    if Blank(value) then DefaultPushRpcUrls
    else
      var entries := RpcEntries(value.value);
      if |entries| > 0 then entries else DefaultPushRpcUrls
  }

  /** Every configured URL is a trimmed entry that occurs, between commas, in
      the raw setting; every non-blank entry of the raw setting is kept. */
  lemma RpcUrlsComeFromSetting(value: string)
    requires value != []
    ensures forall k :: 0 <= k < |RpcEntries(value)| ==>
              RpcEntries(value)[k] in MapSeq(Split(value, ','), Trim)
    ensures forall k :: 0 <= k < |Split(value, ',')| && Trim(Split(value, ',')[k]) != [] ==>
              Trim(Split(value, ',')[k]) in ParseRpcUrls(Some(value))
  {
    var parts := Split(value, ',');
    var trimmed := MapSeq(parts, Trim);
    forall k | 0 <= k < |parts| && Trim(parts[k]) != []
      ensures Trim(parts[k]) in ParseRpcUrls(Some(value))
    {
      assert trimmed[k] == Trim(parts[k]);
      NonEmptyKeeps(trimmed, Trim(parts[k]));
    }
  }

  /** Only a setting whose every comma-separated entry is blank falls back to the
      default nodes. */
  lemma RpcUrlsDefaultIff(value: string)
    requires value != []
    ensures RpcEntries(value) == [] ==>
              forall k :: 0 <= k < |Split(value, ',')| ==> AllWhitespace(Split(value, ',')[k])
    ensures (forall k :: 0 <= k < |Split(value, ',')| ==> AllWhitespace(Split(value, ',')[k])) ==>
              RpcEntries(value) == []
  {
    var parts := Split(value, ',');
    var trimmed := MapSeq(parts, Trim);
    NonEmptyEmptyIff(trimmed);
    forall k | 0 <= k < |parts|
      ensures trimmed[k] == [] <==> AllWhitespace(parts[k])
    {
      assert trimmed[k] == Trim(parts[k]);
    }
    if RpcEntries(value) == [] {
      forall k | 0 <= k < |parts| ensures AllWhitespace(parts[k]) {
        assert trimmed[k] == [];
      }
    } else {
      var k :| 0 <= k < |trimmed| && trimmed[k] != [];
      assert !AllWhitespace(parts[k]);
      assert !(forall m :: 0 <= m < |Split(value, ',')| ==> AllWhitespace(Split(value, ',')[m]));
    }
  }

  /** The primary RPC URL is the first entry of the setting when that entry
      is not blank: `filter(Boolean)` keeps the order of the entries. */
  lemma FirstEntryIsPrimary(first: string, rest: string)
    requires ',' !in first && Trim(first) != []
    ensures PushRpcUrl(Some(first + [','] + rest)) == Trim(first)
  {
    var value := first + [','] + rest;
    SplitAfterWord(first, ',', rest);
    var tail := MapSeq(Split(rest, ','), Trim);
    assert MapSeq(Split(value, ','), Trim) == [Trim(first)] + tail;
    NonEmptyConcat([Trim(first)], tail);
    NonEmptySingleton(Trim(first));
  }

  /** `PUSH_RPC_URL`: the first configured RPC URL, which always exists. */
  function PushRpcUrl(value: Option<string>): (url: string)
    ensures url != []
    ensures url == ParseRpcUrls(value)[0]
  {
    ParseRpcUrls(value)[0]
  }

  /** A parsed setting `parsePositiveInt` accepts: finite and above zero. */
  predicate Accepted(parsed: Num) {
    parsed.IsFinite() && parsed.Positive()
  }

  /** `parsePositiveInt`: the fallback for a blank, non-finite or non-positive
      setting, otherwise the setting rounded down (which is 0 for values in (0, 1)).
      `numberOf` is JavaScript's `Number(string)`. */
  function ParsePositiveInt(value: Option<string>, fallback: int, numberOf: string -> Num): (n: int)
    ensures Blank(value) ==> n == fallback
    ensures !Blank(value) && !Accepted(numberOf(value.value)) ==> n == fallback
    ensures !Blank(value) && Accepted(numberOf(value.value)) ==>
      0 <= n && n as real <= numberOf(value.value).v < n as real + 1.0
  {
    if Blank(value) then fallback
    else
      var parsed := numberOf(value.value);
      if !parsed.IsFinite() || parsed.NonPositive() then fallback
      else parsed.v.Floor
  }

  /** The process environment variables the application reads. */
  datatype Env = Env(
    pushChainId: Option<string>,
    pushRpcUrls: Option<string>,
    blockExplorerUrl: Option<string>,
    treasuryAddress: Option<string>,
    membershipContractAddress: Option<string>,
    badgeContractAddress: Option<string>,
    registrarContractAddress: Option<string>,
    marketplaceContractAddress: Option<string>,
    revenueSplitRouterAddress: Option<string>,
    subscriptionPriceNative: Option<string>,
    subscriptionPriceUsd: Option<string>,
    nativeTokenSymbol: Option<string>,
    membershipDurationSeconds: Option<string>,
    membershipTransferCooldownSeconds: Option<string>
  )

  /** The resolved configuration constants. */
  datatype Settings = Settings(
    pushChainId: Num,
    pushRpcUrls: seq<string>,
    pushRpcUrl: string,
    blockExplorerUrl: string,
    treasuryAddress: string,
    membershipContractAddress: string,
    badgeContractAddress: string,
    registrarContractAddress: string,
    marketplaceContractAddress: string,
    revenueSplitRouterAddress: string,
    subscriptionPriceNative: string,
    subscriptionPriceUsd: string,
    nativeTokenSymbol: string,
    membershipDurationSeconds: int,
    membershipTransferCooldownSeconds: int
  )

  /** Resolves every constant from the environment. Plain settings use `??`, so
      only an absent variable takes the default; an empty one is kept. */
  function Resolve(env: Env, numberOf: string -> Num): (s: Settings)
    ensures s.pushRpcUrls == ParseRpcUrls(env.pushRpcUrls)
    ensures |s.pushRpcUrls| > 0 && s.pushRpcUrl == s.pushRpcUrls[0]
    ensures env.pushChainId.None? ==> s.pushChainId == Finite(DefaultPushChainId as real)
    ensures env.pushChainId.Some? ==> s.pushChainId == numberOf(env.pushChainId.value)
    // every `??` setting: a present variable, even an empty one, is taken as is
    ensures env.blockExplorerUrl.Some? ==> s.blockExplorerUrl == env.blockExplorerUrl.value
    ensures env.treasuryAddress.Some? ==> s.treasuryAddress == env.treasuryAddress.value
    ensures env.membershipContractAddress.Some? ==> s.membershipContractAddress == env.membershipContractAddress.value
    ensures env.badgeContractAddress.Some? ==> s.badgeContractAddress == env.badgeContractAddress.value
    ensures env.registrarContractAddress.Some? ==> s.registrarContractAddress == env.registrarContractAddress.value
    ensures env.marketplaceContractAddress.Some? ==> s.marketplaceContractAddress == env.marketplaceContractAddress.value
    ensures env.revenueSplitRouterAddress.Some? ==> s.revenueSplitRouterAddress == env.revenueSplitRouterAddress.value
    ensures env.subscriptionPriceNative.Some? ==> s.subscriptionPriceNative == env.subscriptionPriceNative.value
    ensures env.subscriptionPriceUsd.Some? ==> s.subscriptionPriceUsd == env.subscriptionPriceUsd.value
    ensures env.nativeTokenSymbol.Some? ==> s.nativeTokenSymbol == env.nativeTokenSymbol.value
    // and an absent one takes its default
    ensures env.blockExplorerUrl.None? ==> s.blockExplorerUrl == "https://donut.push.network"
    ensures env.treasuryAddress.None? ==> s.treasuryAddress == []
    ensures env.membershipContractAddress.None? ==> s.membershipContractAddress == []
    ensures env.badgeContractAddress.None? ==> s.badgeContractAddress == []
    ensures env.registrarContractAddress.None? ==> s.registrarContractAddress == []
    ensures env.marketplaceContractAddress.None? ==> s.marketplaceContractAddress == []
    ensures env.revenueSplitRouterAddress.None? ==> s.revenueSplitRouterAddress == []
    ensures env.subscriptionPriceUsd == None ==> s.subscriptionPriceUsd == DefaultSubscriptionPrice
    ensures env.subscriptionPriceNative == None ==> s.subscriptionPriceNative == DefaultSubscriptionPrice
    ensures env.nativeTokenSymbol == None ==> s.nativeTokenSymbol == DefaultNativeTokenSymbol
    ensures Blank(env.membershipDurationSeconds) ==>
              s.membershipDurationSeconds == DefaultMembershipDurationSeconds
    ensures Blank(env.membershipTransferCooldownSeconds) ==>
              s.membershipTransferCooldownSeconds == DefaultMembershipTransferCooldownSeconds
    ensures s.membershipDurationSeconds
            == ParsePositiveInt(env.membershipDurationSeconds, DefaultMembershipDurationSeconds, numberOf)
    ensures s.membershipTransferCooldownSeconds
            == ParsePositiveInt(env.membershipTransferCooldownSeconds,
                                DefaultMembershipTransferCooldownSeconds, numberOf)
    ensures s.membershipDurationSeconds >= 0 && s.membershipTransferCooldownSeconds >= 0
  {
    var urls := ParseRpcUrls(env.pushRpcUrls);
    Settings(
      pushChainId := if env.pushChainId.Some? then numberOf(env.pushChainId.value)
                     else Finite(DefaultPushChainId as real),
      pushRpcUrls := urls,
      pushRpcUrl := urls[0],
      blockExplorerUrl := env.blockExplorerUrl.GetOr("https://donut.push.network"),
      treasuryAddress := env.treasuryAddress.GetOr([]),
      membershipContractAddress := env.membershipContractAddress.GetOr([]),
      badgeContractAddress := env.badgeContractAddress.GetOr([]),
      registrarContractAddress := env.registrarContractAddress.GetOr([]),
      marketplaceContractAddress := env.marketplaceContractAddress.GetOr([]),
      revenueSplitRouterAddress := env.revenueSplitRouterAddress.GetOr([]),
      subscriptionPriceNative := env.subscriptionPriceNative.GetOr(DefaultSubscriptionPrice),
      subscriptionPriceUsd := env.subscriptionPriceUsd.GetOr(DefaultSubscriptionPrice),
      nativeTokenSymbol := env.nativeTokenSymbol.GetOr(DefaultNativeTokenSymbol),
      membershipDurationSeconds :=
        ParsePositiveInt(env.membershipDurationSeconds, DefaultMembershipDurationSeconds, numberOf),
      membershipTransferCooldownSeconds :=
        ParsePositiveInt(env.membershipTransferCooldownSeconds,
                         DefaultMembershipTransferCooldownSeconds, numberOf)
    )
  }

  /** The default membership lasts 30 days and the transfer cooldown is one day. */
  lemma DefaultDurations()
    ensures DefaultMembershipDurationSeconds == 2592000
    ensures DefaultMembershipTransferCooldownSeconds == 86400
  {
  }
}

=== FILE: display_prices.dfy ===
/** The display-price client: a USD price cache with a ten-minute lifetime and
    de-duplication of pending requests. Its two process-wide maps are an
    explicit state; issuing a request and settling it are separate transitions,
    so concurrent callers become a sequence of calls. A pending request is
    identified by a ticket, standing for the shared promise. */
module DisplayPrices {
  import opened Outcomes
  import opened Js
  import opened PriceFeed

  /** Lifetime of a cached display price, in milliseconds. */
  const PriceTtlMs: int := 10 * 60_000

  datatype Entry = Entry(value: real, expiresAt: int)

  /** `priceCache`, `inFlight` (id to the ticket of its pending request) and the
      next unused ticket. */
  datatype State = State(priceCache: map<string, Entry>, inFlight: map<string, nat>, nextTicket: nat)

  /** What a caller gets back: a cached price now, or the pending request it
      shares (`issued` says whether this call started it). */
  datatype Reply = Ready(price: real) | Awaiting(ticket: nat, issued: bool)

  datatype Transition<T> = Transition(state: State, out: T)

  const Initial: State := State(map[], map[], 0)

  /** Cached prices are positive, and distinct pending requests have distinct
      tickets that were already handed out. */
  ghost predicate Valid(s: State) {
    && (forall id :: id in s.priceCache ==> s.priceCache[id].value > 0.0)
    && (forall id :: id in s.inFlight ==> s.inFlight[id] < s.nextTicket)
    && (forall a, b :: a in s.inFlight && b in s.inFlight && a != b ==> s.inFlight[a] != s.inFlight[b])
  }

  lemma InitialValid()
    ensures Valid(Initial)
  {
  }

  /** `getCachedCoingeckoUsdPrice`: the stored value exactly while its expiry is
      strictly later than `now`. */
  function GetCachedUsdPrice(s: State, id: string, now: int): (r: Option<real>)
    ensures r.Some? <==> id in s.priceCache && s.priceCache[id].expiresAt > now
    ensures r.Some? ==> r.value == s.priceCache[id].value
  {
    if id in s.priceCache && s.priceCache[id].expiresAt > now then Some(s.priceCache[id].value) else None
  }

  /** `getCoingeckoUsdPrice`: a fresh cached price is returned and nothing
      changes; otherwise the caller joins the pending request for `id`, and only
      when there is none is a new one started. The cache itself never changes. */
  function GetUsdPrice(s: State, id: string, now: int): (r: Transition<Reply>)
    ensures GetCachedUsdPrice(s, id, now).Some? ==>
      r == Transition(s, Ready(GetCachedUsdPrice(s, id, now).value))
    ensures GetCachedUsdPrice(s, id, now).None? && id in s.inFlight ==>
      r == Transition(s, Awaiting(s.inFlight[id], false))
    ensures GetCachedUsdPrice(s, id, now).None? && id !in s.inFlight ==>
      r.out == Awaiting(s.nextTicket, true)
      && r.state.inFlight == s.inFlight[id := s.nextTicket]
      && r.state.nextTicket == s.nextTicket + 1
    ensures r.state.priceCache == s.priceCache
    ensures r.out.Awaiting? ==> id in r.state.inFlight && r.state.inFlight[id] == r.out.ticket
    ensures forall k :: k != id ==> (k in r.state.inFlight <==> k in s.inFlight)
    ensures forall k :: k != id && k in s.inFlight ==> r.state.inFlight[k] == s.inFlight[k]
  {
    match GetCachedUsdPrice(s, id, now)
    case Some(price) => Transition(s, Ready(price))
    case None =>
      if id in s.inFlight then Transition(s, Awaiting(s.inFlight[id], false))
      else
        Transition(s.(inFlight := s.inFlight[id := s.nextTicket], nextTicket := s.nextTicket + 1),
                   Awaiting(s.nextTicket, true))
  }

  lemma GetUsdPricePreservesValid(s: State, id: string, now: int)
    requires Valid(s)
    ensures Valid(GetUsdPrice(s, id, now).state)
  {
  }

  /** `requestPrice`'s validation: a number, finite and above zero. */
  function AcceptedPrice(o: HttpOutcome): (r: Option<real>)
    ensures r.Some? <==> HasFinitePrice(o) && o.usd.n.v > 0.0
    ensures r.Some? ==> r.value == o.usd.n.v
  {
    if HasFinitePrice(o) && o.usd.n.v > 0.0 then Some(o.usd.n.v) else None
  }

  /** The pending request for `id` settles at `now`: a valid price is cached
      until `now + 10 min` and returned; anything else (a rejected request, an
      HTTP error, an invalid payload) resolves to null and leaves the cache
      alone. Either way the pending entry for `id`, and only it, is removed. */
  function Settle(s: State, id: string, outcome: HttpOutcome, now: int): (r: Transition<Option<real>>)
    requires id in s.inFlight
    ensures r.out == AcceptedPrice(outcome)
    ensures r.out.Some? ==> r.state.priceCache == s.priceCache[id := Entry(r.out.value, now + PriceTtlMs)]
    ensures r.out.None? ==> r.state.priceCache == s.priceCache
    ensures r.state.inFlight.Keys == s.inFlight.Keys - {id}
    ensures forall k :: k in r.state.inFlight ==> r.state.inFlight[k] == s.inFlight[k]
    ensures r.state.nextTicket == s.nextTicket
  {
    var cache := match AcceptedPrice(outcome)
      case Some(price) => s.priceCache[id := Entry(price, now + PriceTtlMs)]
      case None => s.priceCache;
    Transition(State(cache, s.inFlight - {id}, s.nextTicket), AcceptedPrice(outcome))
  }

  lemma SettlePreservesValid(s: State, id: string, outcome: HttpOutcome, now: int)
    requires Valid(s) && id in s.inFlight
    ensures Valid(Settle(s, id, outcome, now).state)
  {
  }

  /** After a valid price settles at `t`, lookups serve it exactly before
      `t + 10 min`, and prices of other ids are untouched. */
  lemma SettledPriceLifetime(s: State, id: string, outcome: HttpOutcome, t: int, later: int, other: string)
    requires id in s.inFlight && AcceptedPrice(outcome).Some?
    requires other != id
    ensures GetCachedUsdPrice(Settle(s, id, outcome, t).state, id, later).Some? <==> later < t + PriceTtlMs
    ensures later < t + PriceTtlMs ==>
      GetCachedUsdPrice(Settle(s, id, outcome, t).state, id, later) == AcceptedPrice(outcome)
    ensures GetCachedUsdPrice(Settle(s, id, outcome, t).state, other, later) == GetCachedUsdPrice(s, other, later)
  {
    var s' := Settle(s, id, outcome, t).state;
    assert s'.priceCache[id] == Entry(AcceptedPrice(outcome).value, t + PriceTtlMs);
  }

  /** One step of a run: a caller asking for a price, or the pending request of
      an id settling. */
  datatype Event = Call(id: string, now: int) | Resolve(id: string, outcome: HttpOutcome, now: int)

  function Apply(s: State, e: Event): State {
    match e
    case Call(id, now) => GetUsdPrice(s, id, now).state
    case Resolve(id, outcome, now) =>
      if id in s.inFlight then Settle(s, id, outcome, now).state else s
  }

  predicate Issues(reply: Reply) {
    reply.Awaiting? && reply.issued
  }

  /** How many requests for `id` a run starts. */
  function RequestsIssued(s: State, events: seq<Event>, id: string): nat
    decreases |events|
  {
    if |events| == 0 then 0
    else
      var issued := match events[0]
        case Call(i, now) => if i == id && Issues(GetUsdPrice(s, i, now).out) then 1 else 0
        case Resolve(_, _, _) => 0;
      issued + RequestsIssued(Apply(s, events[0]), events[1..], id)
  }

  predicate NoResolveOf(events: seq<Event>, id: string) {
    forall k :: 0 <= k < |events| ==> !(events[k].Resolve? && events[k].id == id)
  }

  /** A pending request for `id` survives every event except its own settlement. */
  lemma PendingSurvives(s: State, e: Event, id: string)
    requires id in s.inFlight
    requires !(e.Resolve? && e.id == id)
    ensures id in Apply(s, e).inFlight
  {
  }

  /** De-duplication: however many callers ask for `id`, with any other traffic
      in between, at most one request for `id` is started until it settles, and
      none when one is already pending. */
  lemma {:induction false} AtMostOneRequestUntilSettled(s: State, events: seq<Event>, id: string)
    requires NoResolveOf(events, id)
    ensures RequestsIssued(s, events, id) <= 1
    ensures id in s.inFlight ==> RequestsIssued(s, events, id) == 0
    decreases |events|
  {
    if |events| > 0 {
      var s' := Apply(s, events[0]);
      assert NoResolveOf(events[1..], id) by {
        forall k | 0 <= k < |events[1..]|
          ensures !(events[1..][k].Resolve? && events[1..][k].id == id)
        {
          assert events[1..][k] == events[k + 1];
        }
      }
      assert !(events[0].Resolve? && events[0].id == id);
      AtMostOneRequestUntilSettled(s', events[1..], id);
      if id in s.inFlight {
        PendingSurvives(s, events[0], id);
      } else if events[0].Call? && events[0].id == id {
        if Issues(GetUsdPrice(s, id, events[0].now).out) {
          assert id in s'.inFlight;
        }
      }
    }
  }
}

=== FILE: join_group.dfy ===
/** The join button's decision logic, lifted out of the React component: which
    flow the button offers, the preflight before a join (`prepareJoin`), the
    join itself (`finalizeJoin`) and the click handler that connects them
    (`handleJoin`). Contract reads, RPC results and the backend mutation are
    inputs. */
module JoinGroup {
  import opened Outcomes
  import opened Js
  import opened NativeToken

  /** What the button component renders. */
  datatype ButtonView = OwnerDisabled | LeaveFlow | JoinFlow

  /** The inputs of the preflight, as the component sees them. Addresses are
      strings, empty when unset; `courseId` is `resolveMembershipCourseId(group)`. */
  datatype JoinContext = JoinContext(
    address: Option<string>,
    ownerWallet: Option<string>,
    publicClientAvailable: bool,
    walletClientAvailable: bool,
    price: Option<Num>,
    marketplaceAddress: string,
    membershipAddress: string,
    courseId: Option<int>,
    storedPassExpiresAt: Option<int>,
    now: int
  )

  /** The on-chain pass check: active with its normalised expiry, inactive, or failed. */
  datatype PassCheck = PassActive(expiryMs: Option<int>) | PassInactive | PassCheckFailed

  /** What the preflight reads from the chain. */
  datatype PrepareIo = PrepareIo(passCheck: PassCheck, balance: Attempt<int>)

  /** `JoinPreparation` */
  datatype JoinPreparation = JoinPreparation(
    requiresPayment: bool,
    skipPayment: bool,
    courseId: Option<int>,
    amount: int,
    passExpiryMs: Option<int>
  )

  /** Why the preflight stopped (each with its toast in the source); `PrepareThrew`
      is an exception escaping the preflight. */
  datatype PrepareAbort =
    | NoWallet | NoOwnerWallet | NoPublicClient
    | NoMarketplaceAddress | NoCourseId | NoMembershipService | NoMarketplaceService
    | NoWalletClient | InsufficientBalance | PrepareThrew

  /** The preflight's result and which chain reads it made. */
  datatype PrepareRun = PrepareRun(result: Result<JoinPreparation, PrepareAbort>, passChecked: bool, balanceRead: bool)

  /** A truthy string. */
  predicate Present(s: Option<string>) {
    s.Some? && s.value != []
  }

  /** A truthy course id: present and not `0n`. */
  predicate HasCourse(courseId: Option<int>) {
    courseId.Some? && courseId.value != 0
  }

  /** `(group.price ?? 0) > 0` */
  predicate RequiresPayment(price: Option<Num>) {
    price.GetOr(Finite(0.0)).Positive()
  }

  /** `membership?.passExpiresAt && membership.passExpiresAt > Date.now()` */
  predicate StoredPassValid(ctx: JoinContext) {
    ctx.storedPassExpiresAt.Some? && ctx.storedPassExpiresAt.value != 0 && ctx.storedPassExpiresAt.value > ctx.now
  }

  /** The three checks every join makes first: a wallet, the group owner's
      wallet and a public client. */
  predicate CommonGuardsPass(ctx: JoinContext) {
    Present(ctx.address) && Present(ctx.ownerWallet) && ctx.publicClientAvailable
  }

  /** Every guard passed on a paid join, and no pass lets it skip payment. */
  predicate PaysAfterGuards(ctx: JoinContext, io: PrepareIo) {
    CommonGuardsPass(ctx) && RequiresPayment(ctx.price) && PaidGuard(ctx).None?
    && !io.passCheck.PassActive? && !StoredPassValid(ctx)
  }

  /** The amount a paid join costs: the price, as a string, in native base units. */
  function PriceAmount(ctx: JoinContext, codec: UnitCodec): Option<int> {
    ParseNativeTokenAmount(codec.numberToString(ctx.price.GetOr(Finite(0.0))), codec)
  }

  /** The button: owners get a disabled button, members the leave flow, and
      only everyone else reaches the join logic. */
  function View(isOwner: bool, isMember: bool): (v: ButtonView)
    ensures isOwner ==> v == OwnerDisabled
    ensures !isOwner && isMember ==> v == LeaveFlow
    ensures v == JoinFlow <==> !isOwner && !isMember
  {
    if isOwner then OwnerDisabled else if isMember then LeaveFlow else JoinFlow
  }

  /** The guards of a paid join, in source order; None when all pass. The
      membership and marketplace services exist exactly when their contract
      addresses are set. */
  function PaidGuard(ctx: JoinContext): (g: Option<PrepareAbort>)
    ensures ctx.marketplaceAddress == [] ==> g == Some(NoMarketplaceAddress)
    ensures ctx.marketplaceAddress != [] && !HasCourse(ctx.courseId) ==> g == Some(NoCourseId)
    ensures ctx.marketplaceAddress != [] && HasCourse(ctx.courseId) && ctx.membershipAddress == [] ==>
      g == Some(NoMembershipService)
    ensures g.None? <==> ctx.marketplaceAddress != [] && HasCourse(ctx.courseId) && ctx.membershipAddress != []
  {
    if ctx.marketplaceAddress == [] then Some(NoMarketplaceAddress)
    else if !HasCourse(ctx.courseId) then Some(NoCourseId)
    else if ctx.membershipAddress == [] then Some(NoMembershipService)
    else if ctx.marketplaceAddress == [] then Some(NoMarketplaceService)
    else None
  }

  /** Whether a paid join may skip payment, and the pass expiry it then records:
      an active on-chain pass first, otherwise a stored expiry still in the
      future. A failed pass check is swallowed. */
  function SkipDecision(ctx: JoinContext, check: PassCheck): (skip: (bool, Option<int>))
    ensures skip.0 <==> check.PassActive? || StoredPassValid(ctx)
    ensures check.PassActive? ==> skip.1 == check.expiryMs
    ensures !check.PassActive? && StoredPassValid(ctx) ==> skip.1 == ctx.storedPassExpiresAt
    ensures !skip.0 ==> skip.1.None?
  {
    if check.PassActive? then (true, check.expiryMs)
    else if StoredPassValid(ctx) then (true, ctx.storedPassExpiresAt)
    else (false, None)
  }

  /** `prepareJoin` */
  function PrepareJoin(ctx: JoinContext, io: PrepareIo, codec: UnitCodec): (run: PrepareRun)
    // the common guards, in order
    ensures !Present(ctx.address) ==> run == PrepareRun(Err(NoWallet), false, false)
    ensures Present(ctx.address) && !Present(ctx.ownerWallet) ==>
      run == PrepareRun(Err(NoOwnerWallet), false, false)
    ensures Present(ctx.address) && Present(ctx.ownerWallet) && !ctx.publicClientAvailable ==>
      run == PrepareRun(Err(NoPublicClient), false, false)
    // the paid-join guards, in order, before any chain read
    ensures run.result.Err? && run.result.error in {NoMarketplaceAddress, NoCourseId, NoMembershipService} ==>
      RequiresPayment(ctx.price) && PaidGuard(ctx) == Some(run.result.error) && !run.passChecked && !run.balanceRead
    ensures run.result.Ok? ==> run.result.value.requiresPayment == RequiresPayment(ctx.price)
    ensures run.result.Ok? ==> run.result.value.courseId == ctx.courseId
    // free joins need no payment, read nothing and pay nothing
    ensures run.result.Ok? && !RequiresPayment(ctx.price) ==>
      !run.passChecked && !run.balanceRead
      && run.result.value == JoinPreparation(false, false, ctx.courseId, 0, None)
    // a paid join skips payment exactly for an active pass or a stored future expiry
    ensures run.result.Ok? && RequiresPayment(ctx.price) ==>
      run.passChecked
      && (run.result.value.skipPayment <==> io.passCheck.PassActive? || StoredPassValid(ctx))
    // only a join that pays has a non-zero amount, a wallet client and a sufficient balance
    ensures run.result.Ok? && !(run.result.value.requiresPayment && !run.result.value.skipPayment) ==>
      run.result.value.amount == 0 && !run.balanceRead
    ensures run.result.Ok? && run.result.value.requiresPayment && !run.result.value.skipPayment ==>
      ctx.walletClientAvailable && run.balanceRead
      && PriceAmount(ctx, codec) == Some(run.result.value.amount)
      && io.balance.Returned? && io.balance.value >= run.result.value.amount
    ensures run.result == Err(InsufficientBalance) ==>
      io.balance.Returned? && PriceAmount(ctx, codec).Some? && io.balance.value < PriceAmount(ctx, codec).value
    ensures run.result == Err(NoWalletClient) ==> !ctx.walletClientAvailable && PriceAmount(ctx, codec).Some?
    ensures run.result == Err(NoWallet) ==> !Present(ctx.address)
    ensures run.result == Err(NoOwnerWallet) ==> Present(ctx.address) && !Present(ctx.ownerWallet)
    ensures run.result == Err(NoPublicClient) ==>
      Present(ctx.address) && Present(ctx.ownerWallet) && !ctx.publicClientAvailable
    // a paid join that must pay stops for the first of its late reasons
    ensures PaysAfterGuards(ctx, io) && PriceAmount(ctx, codec).None? ==> run.result == Err(PrepareThrew)
    ensures PaysAfterGuards(ctx, io) && PriceAmount(ctx, codec).Some? && !ctx.walletClientAvailable ==>
      run.result == Err(NoWalletClient)
    ensures PaysAfterGuards(ctx, io) && PriceAmount(ctx, codec).Some? && ctx.walletClientAvailable
            && io.balance.Threw? ==>
      run.result == Err(PrepareThrew)
    ensures PaysAfterGuards(ctx, io) && PriceAmount(ctx, codec).Some? && ctx.walletClientAvailable
            && io.balance.Returned? && io.balance.value < PriceAmount(ctx, codec).value ==>
      run.result == Err(InsufficientBalance)
    // an exception escapes only from an unparseable price or a failed balance read
    ensures run.result == Err(PrepareThrew) ==> PriceAmount(ctx, codec).None? || io.balance.Threw?
    // when each guard passes, the join is prepared
    ensures CommonGuardsPass(ctx) && !RequiresPayment(ctx.price) ==>
      run.result == Ok(JoinPreparation(false, false, ctx.courseId, 0, None))
    ensures CommonGuardsPass(ctx) && RequiresPayment(ctx.price) && PaidGuard(ctx).Some? ==>
      run.result == Err(PaidGuard(ctx).value)
    ensures CommonGuardsPass(ctx) && RequiresPayment(ctx.price) && PaidGuard(ctx).None?
            && (io.passCheck.PassActive? || StoredPassValid(ctx)) ==>
      run.result == Ok(JoinPreparation(true, true, ctx.courseId, 0, SkipDecision(ctx, io.passCheck).1))
    ensures CommonGuardsPass(ctx) && RequiresPayment(ctx.price) && PaidGuard(ctx).None?
            && !io.passCheck.PassActive? && !StoredPassValid(ctx)
            && PriceAmount(ctx, codec).Some? && ctx.walletClientAvailable
            && io.balance.Returned? && io.balance.value >= PriceAmount(ctx, codec).value ==>
      run.result == Ok(JoinPreparation(true, false, ctx.courseId, PriceAmount(ctx, codec).value, None))
  {
    if !Present(ctx.address) then PrepareRun(Err(NoWallet), false, false)
    else if !Present(ctx.ownerWallet) then PrepareRun(Err(NoOwnerWallet), false, false)
    else if !ctx.publicClientAvailable then PrepareRun(Err(NoPublicClient), false, false)
    else if !RequiresPayment(ctx.price) then
      PrepareRun(Ok(JoinPreparation(false, false, ctx.courseId, 0, None)), false, false)
    else if PaidGuard(ctx).Some? then PrepareRun(Err(PaidGuard(ctx).value), false, false)
    else
      var (skip, expiry) := SkipDecision(ctx, io.passCheck);
      if skip then PrepareRun(Ok(JoinPreparation(true, true, ctx.courseId, 0, expiry)), true, false)
      else
        match PriceAmount(ctx, codec)
        case None => PrepareRun(Err(PrepareThrew), true, false)
        case Some(amount) =>
          if !ctx.walletClientAvailable then PrepareRun(Err(NoWalletClient), true, false)
          else
            match io.balance
            case Threw => PrepareRun(Err(PrepareThrew), true, true)
            case Returned(balance) =>
              if balance < amount then PrepareRun(Err(InsufficientBalance), true, true)
              else PrepareRun(Ok(JoinPreparation(true, false, ctx.courseId, amount, None)), true, true)
  }

  /** The marketplace-service guard can never fire: its service is built from
      the same address the first paid guard already requires. */
  lemma MarketplaceServiceGuardUnreachable(ctx: JoinContext, io: PrepareIo, codec: UnitCodec)
    ensures PrepareJoin(ctx, io, codec).result != Err(NoMarketplaceService)
  {
  }

  /** The pass state read back after a purchase. */
  datatype PassState = PassState(expiryMs: Option<int>, balance: int)

  /** What the join reads and writes outside: the purchase (its hash once
      mined), the pass read back after it, and the backend join mutation. */
  datatype FinalizeIo = FinalizeIo(purchase: Attempt<string>, verify: Attempt<PassState>, mutation: Attempt<()>)

  datatype Purchase = Purchase(courseId: int, amount: int)

  /** The arguments of the backend join mutation. */
  datatype JoinRecord = JoinRecord(memberAddress: string, txHash: Option<string>, hasActivePass: bool,
                                   passExpiresAt: Option<int>)

  datatype FinalizeOutcome = Joined | NoWalletOnFinalize | ContractsUnavailable | PassNotConfirmed | JoinFailed

  /** What `finalizeJoin` did: how it ended, the purchase it made and the join it recorded. */
  datatype FinalizeRun = FinalizeRun(outcome: FinalizeOutcome, purchased: Option<Purchase>, recorded: Option<JoinRecord>)

  /** `finalizeJoin` */
  function FinalizeJoin(prep: JoinPreparation, ctx: JoinContext, io: FinalizeIo): (run: FinalizeRun)
    ensures !Present(ctx.address) ==> run == FinalizeRun(NoWalletOnFinalize, None, None)
    // a purchase happens only for a join that pays, for exactly the prepared amount
    ensures run.purchased.Some? ==>
      prep.requiresPayment && !prep.skipPayment && HasCourse(prep.courseId)
      && run.purchased.value == Purchase(prep.courseId.value, prep.amount)
    ensures Present(ctx.address) && prep.requiresPayment && !prep.skipPayment
            && ctx.marketplaceAddress != [] && ctx.membershipAddress != [] && HasCourse(prep.courseId) ==>
      run.purchased.Some?
    // the recorded join marks an active pass exactly when payment was skipped
    ensures run.recorded.Some? ==>
      run.recorded.value.memberAddress == ctx.address.value
      && run.recorded.value.hasActivePass == prep.skipPayment
      && (run.recorded.value.txHash.Some? <==> run.purchased.Some?)
    ensures run.recorded.Some? && run.purchased.None? ==> run.recorded.value.passExpiresAt == prep.passExpiryMs
    // a paid join is recorded only after a purchase whose pass is confirmed on chain
    ensures run.recorded.Some? && prep.requiresPayment && !prep.skipPayment ==>
      run.purchased.Some? && io.purchase.Returned? && io.verify.Returned? && io.verify.value.balance > 0
    // with a contract or the course missing, a paying join stops: nothing bought, nothing recorded
    ensures Present(ctx.address) && prep.requiresPayment && !prep.skipPayment
            && (ctx.marketplaceAddress == [] || ctx.membershipAddress == [] || !HasCourse(prep.courseId)) ==>
      run == FinalizeRun(ContractsUnavailable, None, None)
    // a purchase that went through but whose pass is not confirmed has its own outcome
    ensures run.outcome == PassNotConfirmed <==>
      run.purchased.Some? && io.purchase.Returned? && (io.verify.Threw? || io.verify.value.balance <= 0)
    ensures run.purchased.Some? && io.purchase.Threw? ==> run.outcome == JoinFailed && run.recorded.None?
    ensures run.recorded.Some? && run.purchased.Some? ==>
      io.purchase.Returned? && io.verify.Returned? && io.verify.value.balance > 0
      && run.recorded.value.txHash == Some(io.purchase.value)
    ensures run.outcome == Joined <==> run.recorded.Some? && io.mutation.Returned?
    // a purchase the chain confirmed is recorded with its hash
    ensures Present(ctx.address) && prep.requiresPayment && !prep.skipPayment
            && ctx.marketplaceAddress != [] && ctx.membershipAddress != [] && HasCourse(prep.courseId)
            && io.purchase.Returned? && io.verify.Returned? && io.verify.value.balance > 0 ==>
      run.recorded == Some(JoinRecord(ctx.address.value, Some(io.purchase.value), false,
                                      if io.verify.value.expiryMs.Some? then io.verify.value.expiryMs
                                      else prep.passExpiryMs))
    // a join that does not pay is recorded at once
    ensures Present(ctx.address) && !(prep.requiresPayment && !prep.skipPayment) ==>
      run.recorded == Some(JoinRecord(ctx.address.value, None, prep.skipPayment, prep.passExpiryMs))
  {
    if !Present(ctx.address) then FinalizeRun(NoWalletOnFinalize, None, None)
    else if prep.requiresPayment && !prep.skipPayment then
      if ctx.marketplaceAddress == [] || ctx.membershipAddress == [] || !HasCourse(prep.courseId) then
        FinalizeRun(ContractsUnavailable, None, None)
      else
        var purchase := Purchase(prep.courseId.value, prep.amount);
        match io.purchase
        case Threw => FinalizeRun(JoinFailed, Some(purchase), None)
        case Returned(hash) =>
          match io.verify
          case Threw => FinalizeRun(PassNotConfirmed, Some(purchase), None)
          case Returned(state) =>
            if state.balance <= 0 then FinalizeRun(PassNotConfirmed, Some(purchase), None)
            else
              var expiry := if state.expiryMs.Some? then state.expiryMs else prep.passExpiryMs;
              var record := JoinRecord(ctx.address.value, Some(hash), prep.skipPayment, expiry);
              FinalizeRun(if io.mutation.Returned? then Joined else JoinFailed, Some(purchase), Some(record))
    else
      var record := JoinRecord(ctx.address.value, None, prep.skipPayment, prep.passExpiryMs);
      FinalizeRun(if io.mutation.Returned? then Joined else JoinFailed, None, Some(record))
  }

  /** What a click on the join button leads to. */
  datatype ClickOutcome =
    | Ignored
    | PreparationStopped(reason: PrepareAbort)
    | PreparationThrew
    | ConfirmationOpened(pending: JoinPreparation)
    | FinalizedDirectly(run: FinalizeRun)

  /** `handleJoin`: nothing while a preparation or a join is running; a stopped
      preflight ends the click (with its toast), while an exception thrown in it
      escapes the handler; a join that pays waits for the confirmation dialog;
      every other prepared join is finalised at once. */
  function HandleJoin(isPreparing: bool, isFinalizing: bool, ctx: JoinContext,
                      prepIo: PrepareIo, finIo: FinalizeIo, codec: UnitCodec): (c: ClickOutcome)
    ensures isPreparing || isFinalizing ==> c == Ignored
    ensures c.ConfirmationOpened? ==>
      c.pending.requiresPayment && !c.pending.skipPayment
      && PrepareJoin(ctx, prepIo, codec).result == Ok(c.pending)
    ensures c.FinalizedDirectly? ==>
      PrepareJoin(ctx, prepIo, codec).result.Ok?
      && !(PrepareJoin(ctx, prepIo, codec).result.value.requiresPayment
           && !PrepareJoin(ctx, prepIo, codec).result.value.skipPayment)
      && c.run.purchased.None?
    ensures !isPreparing && !isFinalizing && PrepareJoin(ctx, prepIo, codec).result == Err(PrepareThrew) ==>
      c == PreparationThrew
    ensures !isPreparing && !isFinalizing && PrepareJoin(ctx, prepIo, codec).result.Err?
            && PrepareJoin(ctx, prepIo, codec).result.error != PrepareThrew ==>
      c == PreparationStopped(PrepareJoin(ctx, prepIo, codec).result.error)
    // once prepared, a paying join waits for confirmation and any other is finalised
    ensures !isPreparing && !isFinalizing && PrepareJoin(ctx, prepIo, codec).result.Ok? ==>
      var prep := PrepareJoin(ctx, prepIo, codec).result.value;
      (prep.requiresPayment && !prep.skipPayment ==> c == ConfirmationOpened(prep))
      && (!(prep.requiresPayment && !prep.skipPayment) ==> c == FinalizedDirectly(FinalizeJoin(prep, ctx, finIo)))
  {
    if isPreparing || isFinalizing then Ignored
    else
      match PrepareJoin(ctx, prepIo, codec).result
      case Err(PrepareThrew) => PreparationThrew
      case Err(reason) => PreparationStopped(reason)
      case Ok(prep) =>
        if prep.requiresPayment && !prep.skipPayment then ConfirmationOpened(prep)
        else FinalizedDirectly(FinalizeJoin(prep, ctx, finIo))
  }

  /** `handleConfirmJoin`: with no pending join the dialog just closes (None). */
  function ConfirmJoin(pending: Option<JoinPreparation>, ctx: JoinContext, io: FinalizeIo): (r: Option<FinalizeRun>)
    ensures pending.None? ==> r.None?
    ensures pending.Some? ==> r == Some(FinalizeJoin(pending.value, ctx, io))
  {
    if pending.None? then None else Some(FinalizeJoin(pending.value, ctx, io))
  }

  /** A paid join that is confirmed buys the pass for exactly the group's price,
      which the preflight checked against the balance. */
  lemma ConfirmedPaidJoinPaysThePrice(ctx: JoinContext, prepIo: PrepareIo, finIo: FinalizeIo, codec: UnitCodec)
    requires HandleJoin(false, false, ctx, prepIo, finIo, codec).ConfirmationOpened?
    ensures var pending := HandleJoin(false, false, ctx, prepIo, finIo, codec).pending;
      var run := ConfirmJoin(Some(pending), ctx, finIo).value;
      run.purchased == Some(Purchase(ctx.courseId.value, PriceAmount(ctx, codec).value))
      && prepIo.balance.Returned? && prepIo.balance.value >= PriceAmount(ctx, codec).value
  {
    var pending := HandleJoin(false, false, ctx, prepIo, finIo, codec).pending;
    assert PrepareJoin(ctx, prepIo, codec).result == Ok(pending);
  }

  /** A free group is joined straight away with no purchase, no transaction
      hash and no active pass. */
  lemma FreeJoinRecordsWithoutPayment(ctx: JoinContext, prepIo: PrepareIo, finIo: FinalizeIo, codec: UnitCodec)
    requires Present(ctx.address) && Present(ctx.ownerWallet) && ctx.publicClientAvailable
    requires !RequiresPayment(ctx.price)
    ensures var c := HandleJoin(false, false, ctx, prepIo, finIo, codec);
      c.FinalizedDirectly? && c.run.purchased.None?
      && c.run.recorded == Some(JoinRecord(ctx.address.value, None, false, None))
  {
  }

  /** End to end: a funded paid join without a pass, past every guard, opens
      the confirmation; once confirmed, it buys the course for the group's
      price and, when the chain confirms the pass, records the member with the
      purchase hash. */
  lemma PaidJoinEndToEnd(ctx: JoinContext, prepIo: PrepareIo, finIo: FinalizeIo, codec: UnitCodec)
    requires CommonGuardsPass(ctx) && RequiresPayment(ctx.price) && PaidGuard(ctx).None?
    requires !prepIo.passCheck.PassActive? && !StoredPassValid(ctx)
    requires PriceAmount(ctx, codec).Some? && ctx.walletClientAvailable
    requires prepIo.balance.Returned? && prepIo.balance.value >= PriceAmount(ctx, codec).value
    requires finIo.purchase.Returned? && finIo.verify.Returned? && finIo.verify.value.balance > 0
    ensures var pending := JoinPreparation(true, false, ctx.courseId, PriceAmount(ctx, codec).value, None);
      HandleJoin(false, false, ctx, prepIo, finIo, codec) == ConfirmationOpened(pending)
    ensures var pending := JoinPreparation(true, false, ctx.courseId, PriceAmount(ctx, codec).value, None);
      var run := ConfirmJoin(Some(pending), ctx, finIo).value;
      run.purchased == Some(Purchase(ctx.courseId.value, PriceAmount(ctx, codec).value))
      && run.recorded == Some(JoinRecord(ctx.address.value, Some(finIo.purchase.value), false,
                                         finIo.verify.value.expiryMs))
      && (run.outcome == Joined <==> finIo.mutation.Returned?)
  {
    var pending := JoinPreparation(true, false, ctx.courseId, PriceAmount(ctx, codec).value, None);
    assert PrepareJoin(ctx, prepIo, codec).result == Ok(pending);
  }

  /** A pass holder is let back into a paid group without paying: the join is
      finalised at once with an active pass, no purchase and no hash. */
  lemma PassHolderJoinsWithoutPaying(ctx: JoinContext, prepIo: PrepareIo, finIo: FinalizeIo, codec: UnitCodec)
    requires CommonGuardsPass(ctx) && RequiresPayment(ctx.price) && PaidGuard(ctx).None?
    requires prepIo.passCheck.PassActive? || StoredPassValid(ctx)
    ensures var c := HandleJoin(false, false, ctx, prepIo, finIo, codec);
      c.FinalizedDirectly? && c.run.purchased.None?
      && c.run.recorded == Some(JoinRecord(ctx.address.value, None, true, SkipDecision(ctx, prepIo.passCheck).1))
  {
    assert PrepareJoin(ctx, prepIo, codec).result
           == Ok(JoinPreparation(true, true, ctx.courseId, 0, SkipDecision(ctx, prepIo.passCheck).1));
  }
}

=== FILE: js.dfy ===
/** The handful of JavaScript number and string semantics the modelled code
    relies on: IEEE special values, truthiness, `trim`, `split`, `slice` and
    `toUpperCase`. */
module Js {

  /** A JavaScript `number`: a finite value or one of the special values. */
  datatype Num = Finite(v: real) | NaN | PosInf | NegInf {

    /** `Number.isFinite(n)` */
    predicate IsFinite() { Finite? }

    /** `n > 0`; false for NaN */
    predicate Positive() { (Finite? && v > 0.0) || PosInf? }

    /** `n <= 0`; false for NaN */
    predicate NonPositive() { (Finite? && v <= 0.0) || NegInf? }

    /** `Boolean(n)`: every number except 0 and NaN is truthy */
    predicate Truthy() { !(Finite? && v == 0.0) && !NaN? }
  }

  /** The characters `String.prototype.trim` removes: ECMAScript WhiteSpace
      (tab, VT, FF, space, NBSP, BOM and the Zs space separators) and
      LineTerminator (LF, CR, LS, PS). */
  predicate IsWhitespace(c: char) {
    || c == '\t' || c == '\U{000B}' || c == '\U{000C}' || c == ' '
    || c == '\U{00A0}' || c == '\U{FEFF}' || c == '\U{1680}'
    || ('\U{2000}' <= c <= '\U{200A}')
    || c == '\U{202F}' || c == '\U{205F}' || c == '\U{3000}'
    || c == '\n' || c == '\r' || c == '\U{2028}' || c == '\U{2029}'
  }

  predicate AllWhitespace(s: string) {
    forall i :: 0 <= i < |s| ==> IsWhitespace(s[i])
  }

  /** Index of the first non-whitespace character, or |s| when there is none. */
  function LeadingSpace(s: string): (n: nat)
    ensures n <= |s|
    ensures AllWhitespace(s[..n])
    ensures n < |s| ==> !IsWhitespace(s[n])
  {
    if |s| == 0 || !IsWhitespace(s[0]) then 0
    else
      var k := LeadingSpace(s[1..]);
      assert s[1..][..k] == s[1..k + 1];
      1 + k
  }

  /** Index just past the last non-whitespace character, or 0 when there is none. */
  function TrailingEnd(s: string): (n: nat)
    ensures n <= |s|
    ensures AllWhitespace(s[n..])
    ensures n > 0 ==> !IsWhitespace(s[n - 1])
  {
    if |s| == 0 || !IsWhitespace(s[|s| - 1]) then |s|
    else
      var k := TrailingEnd(s[..|s| - 1]);
      assert s[..|s| - 1][k..] == s[k..|s| - 1];
      k
  }

  /** `s.trim()`: the longest infix that neither starts nor ends with whitespace,
      obtained by removing only whitespace from both ends. */
  function Trim(s: string): (t: string)
    ensures |t| <= |s|
    ensures |t| > 0 ==> !IsWhitespace(t[0]) && !IsWhitespace(t[|t| - 1])
    ensures t == [] <==> AllWhitespace(s)
  {
    var i := LeadingSpace(s);
    if i == |s| then
      assert s[i..i] == [] && s[i..] == [] && s[..i] == s;
      []
    else
      var j := i + TrailingEnd(s[i..]);
      assert j > i by {
        if j == i { assert s[i..][0] == s[i]; }
      }
      assert s[i..][j - i..] == s[j..];
      assert s[i..j][j - i - 1] == s[j - 1];
      assert !AllWhitespace(s) by { assert s[i] == s[i..j][0]; }
      s[i..j]
  }

  /** Trimming removes nothing but whitespace, and only from the two ends. */
  lemma TrimIsInfix(s: string)
    ensures exists i, j :: 0 <= i <= j <= |s| && Trim(s) == s[i..j]
                          && AllWhitespace(s[..i]) && AllWhitespace(s[j..])
  {
    var i := LeadingSpace(s);
    if i == |s| {
      assert Trim(s) == s[i..i];
    } else {
      var j := i + TrailingEnd(s[i..]);
      assert s[i..][j - i..] == s[j..];
      assert Trim(s) == s[i..j];
    }
  }

  /** `s.split(sep)` for a one-character separator: the maximal separator-free
      pieces, in order, including empty ones. */
  function Split(s: string, sep: char): (parts: seq<string>)
    ensures |parts| >= 1
    ensures forall k :: 0 <= k < |parts| ==> sep !in parts[k]
    decreases |s|
  {
    if |s| == 0 then [[]]
    else
      var rest := Split(s[1..], sep);
      if s[0] == sep then [[]] + rest
      else [[s[0]] + rest[0]] + rest[1..]
  }

  /** A separator-free word followed by the separator splits off as the first piece. */
  lemma {:induction false} SplitAfterWord(w: string, sep: char, rest: string)
    requires sep !in w
    ensures Split(w + [sep] + rest, sep) == [w] + Split(rest, sep)
    decreases |w|
  {
    if |w| == 0 {
      assert w + [sep] + rest == [sep] + rest;
      assert ([sep] + rest)[1..] == rest;
    } else {
      var s := w + [sep] + rest;
      assert s[0] == w[0] && s[1..] == w[1..] + [sep] + rest;
      assert sep !in w[1..];
      SplitAfterWord(w[1..], sep, rest);
      assert [w[0]] + w[1..] == w;
    }
  }

  /** `parts.join(sep)` */
  function Join(parts: seq<string>, sep: char): string
    requires |parts| >= 1
  {
    if |parts| == 1 then parts[0] else parts[0] + [sep] + Join(parts[1..], sep)
  }

  /** Splitting and joining on the same separator gives back the input:
      `split` loses nothing and invents nothing. */
  lemma {:induction false} JoinSplit(s: string, sep: char)
    ensures Join(Split(s, sep), sep) == s
    decreases |s|
  {
    if |s| == 0 {
    } else {
      var rest := Split(s[1..], sep);
      JoinSplit(s[1..], sep);
      if s[0] == sep {
        assert Split(s, sep)[1..] == rest;
        assert s == [sep] + s[1..];
      } else if |rest| == 1 {
        assert s == [s[0]] + s[1..];
      } else {
        var p := Split(s, sep);
        assert p[1..] == rest[1..];
        assert Join(rest, sep) == rest[0] + [sep] + Join(rest[1..], sep);
        assert s == [s[0]] + s[1..];
      }
    }
  }

  /** `arr.filter(Boolean)` on strings: keeps the non-empty ones, in order. */
  function NonEmpty(xs: seq<string>): (ys: seq<string>)
    ensures |ys| <= |xs|
    ensures forall k :: 0 <= k < |ys| ==> ys[k] != [] && ys[k] in xs
  {
    if |xs| == 0 then []
    else if xs[0] == [] then NonEmpty(xs[1..])
    else [xs[0]] + NonEmpty(xs[1..])
  }

  /** `filter(Boolean)` keeps every non-empty element: one is dropped only when empty. */
  lemma {:induction false} NonEmptyKeeps(xs: seq<string>, x: string)
    requires x in xs && x != []
    ensures x in NonEmpty(xs)
  {
    if xs[0] != x {
      assert x in xs[1..];
      NonEmptyKeeps(xs[1..], x);
    }
  }

  /** `filter(Boolean)` of one entry: kept exactly when non-empty. */
  lemma NonEmptySingleton(x: string)
    ensures NonEmpty([x]) == (if x == [] then [] else [x])
  {
    assert [x][1..] == [];
  }

  /** `filter(Boolean)` works entry by entry, so it keeps the order and the
      multiplicity of what it keeps: filtering a concatenation concatenates
      the filtered parts. */
  lemma {:induction false} NonEmptyConcat(a: seq<string>, b: seq<string>)
    ensures NonEmpty(a + b) == NonEmpty(a) + NonEmpty(b)
    decreases |a|
  {
    if |a| > 0 {
      assert (a + b)[0] == a[0];
      assert (a + b)[1..] == a[1..] + b;
      NonEmptyConcat(a[1..], b);
    } else {
      assert a + b == b;
    }
  }

  lemma {:induction false} NonEmptyEmptyIff(xs: seq<string>)
    ensures NonEmpty(xs) == [] <==> forall k :: 0 <= k < |xs| ==> xs[k] == []
  {
    if |xs| > 0 {
      NonEmptyEmptyIff(xs[1..]);
      if xs[0] == [] {
        assert forall k :: 0 < k < |xs| ==> xs[k] == xs[1..][k - 1];
      }
    }
  }

  /** `xs.map(f)` */
  function MapSeq<A, B>(xs: seq<A>, f: A -> B): (ys: seq<B>)
    ensures |ys| == |xs|
    ensures forall k :: 0 <= k < |xs| ==> ys[k] == f(xs[k])
  {
    if |xs| == 0 then [] else [f(xs[0])] + MapSeq(xs[1..], f)
  }

  /** `s.slice(start, end)` for non-negative arguments: both bounds are clamped to |s|. */
  function Slice<T>(s: seq<T>, start: nat, end: nat): (r: seq<T>)
    ensures |r| == if start >= end || start >= |s| then 0
                   else (if end <= |s| then end else |s|) - start
    ensures forall k :: 0 <= k < |r| ==> r[k] == s[start + k]
  {
    var e := if end <= |s| then end else |s|;
    if start >= e then [] else s[start..e]
  }

  /** Upper-casing of one character, for the letters a to z. */
  function UpperChar(c: char): (u: char)
    ensures 'a' <= c <= 'z' ==> 'A' <= u <= 'Z' && u as int - c as int == 'A' as int - 'a' as int
    ensures !('a' <= c <= 'z') ==> u == c
  {
    if 'a' <= c <= 'z' then (c as int - 'a' as int + 'A' as int) as char else c
  }

  /** `s.toUpperCase()`, character by character. */
  function ToUpper(s: string): (u: string)
    ensures |u| == |s|
    ensures forall k :: 0 <= k < |s| ==> u[k] == UpperChar(s[k])
  {
    if |s| == 0 then [] else [UpperChar(s[0])] + ToUpper(s[1..])
  }

  /** `s.endsWith(suffix)` */
  predicate EndsWith(s: string, suffix: string) {
    |suffix| <= |s| && s[|s| - |suffix|..] == suffix
  }

  lemma EndsWithConcat(prefix: string, suffix: string)
    ensures EndsWith(prefix + suffix, suffix)
  {
    assert (prefix + suffix)[|prefix|..] == suffix;
  }
}

=== FILE: member_card.dfy ===
/** The member card: avatar initials, the name shown and the owner badge. */
module MemberCard {
  import opened Outcomes
  import opened Js

  /** The fields of a user document the card reads. */
  datatype Member = Member(id: string, displayName: Option<string>, walletAddress: string)

  /** What the card shows besides formatting: initials, heading and badge. */
  datatype CardView = CardView(initials: string, heading: string, ownerBadge: bool)

  /** `displayName.split(' ').filter(Boolean)`: the space-separated words. */
  function Words(name: string): (words: seq<string>)
    ensures forall k :: 0 <= k < |words| ==> words[k] != [] && ' ' !in words[k]
  {
    NonEmpty(Split(name, ' '))
  }

  /** `tokens.map(token => token[0]?.toUpperCase() ?? '').join('')` */
  function FirstLetters(tokens: seq<string>): (initials: string)
    requires forall k :: 0 <= k < |tokens| ==> tokens[k] != []
    ensures |initials| == |tokens|
    ensures forall k :: 0 <= k < |tokens| ==> initials[k] == UpperChar(tokens[k][0])
  {
    if |tokens| == 0 then [] else ToUpper([tokens[0][0]]) + FirstLetters(tokens[1..])
  }

  /** `getInitials`: the upper-cased first letters of at most the first two
      words of a non-empty display name; otherwise characters 2 and 3 of the
      wallet address (just after `0x`), upper-cased. */
  function GetInitials(m: Member): (initials: string)
    ensures m.displayName.Some? && m.displayName.value != [] ==>
      var words := Words(m.displayName.value);
      |initials| == (if |words| < 2 then |words| else 2)
      && forall k :: 0 <= k < |initials| ==> initials[k] == UpperChar(words[k][0])
    ensures !(m.displayName.Some? && m.displayName.value != []) ==>
      initials == ToUpper(Slice(m.walletAddress, 2, 4))
    ensures |initials| <= 2
  {
    if m.displayName.Some? && m.displayName.value != [] then
      var words := Words(m.displayName.value);
      FirstLetters(if |words| < 2 then words else words[..2])
    else ToUpper(Slice(m.walletAddress, 2, 4))
  }

  /** A string without spaces splits into itself alone. */
  lemma {:induction false} SplitWithoutSeparator(s: string, sep: char)
    requires sep !in s
    ensures Split(s, sep) == [s]
    decreases |s|
  {
    if |s| > 0 {
      assert sep !in s[1..];
      SplitWithoutSeparator(s[1..], sep);
      assert [s[0]] + s[1..] == s;
    }
  }

  /** A string of spaces splits into empty pieces only. */
  lemma {:induction false} SplitOfSeparators(s: string, sep: char)
    requires forall k :: 0 <= k < |s| ==> s[k] == sep
    ensures forall k :: 0 <= k < |Split(s, sep)| ==> Split(s, sep)[k] == []
    decreases |s|
  {
    if |s| > 0 {
      SplitOfSeparators(s[1..], sep);
      var rest := Split(s[1..], sep);
      assert Split(s, sep) == [[]] + rest;
    }
  }

  /** A name of two words separated by one space gives both initials, in
      order: the words keep the order of the name. */
  lemma TwoWordInitials(m: Member, first: string, second: string)
    requires first != [] && second != [] && ' ' !in first && ' ' !in second
    requires m.displayName == Some(first + [' '] + second)
    ensures GetInitials(m) == [UpperChar(first[0]), UpperChar(second[0])]
  {
    SplitAfterWord(first, ' ', second);
    SplitWithoutSeparator(second, ' ');
    assert Split(m.displayName.value, ' ') == [first] + [second];
    NonEmptyConcat([first], [second]);
    NonEmptySingleton(first);
    NonEmptySingleton(second);
    assert Words(m.displayName.value) == [first, second];
  }

  /** A one-word name gives one initial: its first letter, upper-cased. */
  lemma SingleWordInitial(m: Member)
    requires m.displayName.Some? && m.displayName.value != [] && ' ' !in m.displayName.value
    ensures GetInitials(m) == [UpperChar(m.displayName.value[0])]
  {
    SplitWithoutSeparator(m.displayName.value, ' ');
    assert Words(m.displayName.value) == [m.displayName.value];
  }

  /** A display name made only of spaces is truthy but has no words, so the
      avatar shows no initials at all (the wallet is not consulted). */
  lemma AllSpaceNameHasNoInitials(m: Member)
    requires m.displayName.Some? && m.displayName.value != []
    requires forall k :: 0 <= k < |m.displayName.value| ==> m.displayName.value[k] == ' '
    ensures GetInitials(m) == []
  {
    SplitOfSeparators(m.displayName.value, ' ');
    NonEmptyEmptyIff(Split(m.displayName.value, ' '));
  }

  /** The card: the owner badge exactly when the group's owner id is the
      member's id; the heading is `displayName ?? walletAddress`, so an empty
      display name is shown as is while the initials fall back to the wallet. */
  function Card(groupOwnerId: string, m: Member): (view: CardView)
    ensures view.ownerBadge <==> groupOwnerId == m.id
    ensures m.displayName.Some? ==> view.heading == m.displayName.value
    ensures m.displayName.None? ==> view.heading == m.walletAddress
    ensures view.initials == GetInitials(m)
  {
    CardView(GetInitials(m), m.displayName.GetOr(m.walletAddress), groupOwnerId == m.id)
  }
}

=== FILE: native_token.dfy ===
/** Conversions between human-readable token amounts and integer base units.
    The SDK helpers and JavaScript's float formatting are injected functions. */
module NativeToken {
  import opened Outcomes
  import opened Js
  import Config

  /** The unit helpers of the Push Chain SDK and the float operations around them.
      - `parseUnits(text, decimals)`: the amount in base units, or None when the
        helper throws on malformed text;
      - `formatUnits(amount, decimals, precision)`: the decimal rendering;
      - `numberOf(text)`: JavaScript's `Number(text)`;
      - `fixedQuotient(usd, price, digits)`: `(usd / price).toFixed(digits)`;
      - `numberToString(n)`: `n.toString()`. */
  datatype UnitCodec = UnitCodec(
    parseUnits: (string, nat) -> Option<int>,
    formatUnits: (int, nat, nat) -> string,
    numberOf: string -> Num,
    fixedQuotient: (Num, real, nat) -> string,
    numberToString: Num -> string
  )

  /** `parseNativeTokenAmount` on a string: zero for a blank string, otherwise the
      trimmed text parsed with the native token's 18 decimals. */
  function ParseNativeTokenAmount(value: string, codec: UnitCodec): (r: Option<int>)
    ensures AllWhitespace(value) ==> r == Some(0)
    ensures !AllWhitespace(value) ==> r == codec.parseUnits(Trim(value), Config.NativeTokenDecimals)
  {
    var normalized := Trim(value);
    if normalized == [] then Some(0)
    else codec.parseUnits(normalized, Config.NativeTokenDecimals)
  }
}

=== FILE: outcomes.dfy ===
/** Optional values and success/failure results, used wherever the TypeScript
    code returns `null`/`undefined` or throws. */
module Outcomes {

  /** A value that may be absent (`null` or `undefined` in the source). */
  datatype Option<+T> = None | Some(value: T) {
    function GetOr(default: T): T {
      match this
      case Some(v) => v
      case None => default
    }
  }

  /** The result of an operation that either returns a value or throws `error`. */
  datatype Result<+T, +E> = Ok(value: T) | Err(error: E)

  /** The outcome of a call into code outside the model (an RPC, a mutation):
      it returned a value or it threw. */
  datatype Attempt<+T> = Returned(value: T) | Threw
}

=== FILE: platform_fee.dfy ===
/** Platform-fee quoting: converts the fixed USD subscription price into an
    amount of the token the user's origin chain pays with, and builds the
    transaction parameters that send it to the treasury. The price API answer,
    the clock and the SDK unit helpers are inputs. */
module PlatformFee {
  import opened Outcomes
  import opened Js
  import opened PriceFeed
  import opened NativeToken

  /** How long a fetched price is served from the cache, in milliseconds. */
  const PriceCacheTtlMs: int := 60_000

  /** The chain identifiers of the Push Chain SDK that the module names. */
  datatype SdkChain =
    | PushMainnet | PushTestnet | PushTestnetDonut | PushLocalnet
    | EthereumMainnet | EthereumSepolia
    | SolanaMainnet | SolanaTestnet | SolanaDevnet
    | BnbTestnet | ArbitrumSepolia | BaseSepolia

  /** An origin-chain identifier string: one of the SDK constants above (all
      non-empty), or any other string, including the empty one. */
  datatype ChainId = Known(chain: SdkChain) | Unlisted(raw: string)

  datatype TokenAccessor = ETH | SOL | USDT | WETH

  /** Price-feed id, symbol, decimals and wallet-registry key of a chain's fee token. */
  datatype PaymentConfig = PaymentConfig(
    coingeckoId: string,
    symbol: string,
    decimals: nat,
    tokenAccessor: Option<TokenAccessor>
  )

  datatype Mechanism = Approve | Permit2 | NativeTransfer

  /** A token the wallet client can move on the user's behalf. */
  datatype MoveableToken = MoveableToken(symbol: string, decimals: int, address: string, mechanism: Mechanism)

  /** The wallet client: only its token registry (`client.moveable.token`) matters here. */
  datatype Client = Client(registry: Option<map<TokenAccessor, MoveableToken>>)

  datatype Funds = Funds(amount: int, token: MoveableToken)

  /** Transaction parameters: a destination and either a native `value` or `funds`. */
  datatype TxParams = TxParams(to: string, value: Option<int>, funds: Option<Funds>)

  datatype Quote = Quote(
    usdAmount: Num,
    symbol: string,
    decimals: nat,
    amount: int,
    displayAmount: string,
    treasuryAddress: string,
    params: TxParams
  )

  datatype FeeError =
    | TreasuryNotConfigured
    | FetchFailed(id: string)
    | HttpFailed(id: string, status: int)
    | InvalidPricePayload(id: string)
    | NonPositivePrice(id: string)
    | UnitsUnparseable

  datatype CachedPrice = CachedPrice(value: real, expiresAt: int)

  type PriceCache = map<string, CachedPrice>

  /** The price cache after an operation, together with the operation's result. */
  datatype Step<T> = Step(cache: PriceCache, result: Result<T, FeeError>)

  /** The clock reading at the cache lookup, the answer a fetch would get, and
      the clock reading when that answer arrives. */
  datatype PriceIo = PriceIo(now: int, fetched: HttpOutcome, settledAt: int)

  /** The arguments of `resolvePlatformFeeQuote`. */
  datatype FeeRequest = FeeRequest(
    client: Option<Client>,
    originChain: Option<ChainId>,
    treasuryAddress: Option<string>
  )

  const PushChainIds: set<SdkChain> := {PushMainnet, PushTestnet, PushTestnetDonut, PushLocalnet}

  const PaymentConfigByChain: map<SdkChain, PaymentConfig> := map[
    EthereumMainnet := PaymentConfig("ethereum", "ETH", 18, Some(ETH)),
    EthereumSepolia := PaymentConfig("ethereum", "ETH", 18, Some(ETH)),
    SolanaMainnet := PaymentConfig("solana", "SOL", 9, Some(SOL)),
    SolanaTestnet := PaymentConfig("solana", "SOL", 9, Some(SOL)),
    SolanaDevnet := PaymentConfig("solana", "SOL", 9, Some(SOL)),
    BnbTestnet := PaymentConfig("binancecoin", "BNB", 18, Some(ETH)),
    ArbitrumSepolia := PaymentConfig("ethereum", "ETH", 18, Some(ETH)),
    BaseSepolia := PaymentConfig("ethereum", "ETH", 18, Some(ETH))
  ]

  const DefaultPushConfig: PaymentConfig := PaymentConfig("push-protocol", "PC", 18, None)

  /** `!originChain`: no origin, or the empty string. */
  predicate UnsetOrigin(origin: Option<ChainId>) {
    origin == None || origin == Some(Unlisted([]))
  }

  /** `PUSH_CHAIN_IDS.has(originChain ?? '')` */
  predicate IsPushOrigin(origin: Option<ChainId>) {
    origin.Some? && origin.value.Known? && origin.value.chain in PushChainIds
  }

  /** An origin with its own entry in the payment table. */
  predicate IsTableOrigin(origin: Option<ChainId>) {
    origin.Some? && origin.value.Known? && origin.value.chain in PaymentConfigByChain
  }

  /** The push chains and the external chains of the table are disjoint, and
      together they are every SDK chain the module names. */
  lemma ChainClassesPartition(c: SdkChain)
    ensures c in PushChainIds <==> c !in PaymentConfigByChain
  {
  }

  /** Every external entry names a token accessor; only the push default lacks one. */
  lemma TableEntriesHaveAccessors(c: SdkChain)
    requires c in PaymentConfigByChain
    ensures PaymentConfigByChain[c].tokenAccessor.Some?
    ensures PaymentConfigByChain[c].symbol != DefaultPushConfig.symbol
    ensures PaymentConfigByChain[c].decimals == (if PaymentConfigByChain[c].symbol == "SOL" then 9 else 18)
  {
  }

  /** `getPaymentConfig`: a total lookup. Unset, push-chain and unknown origins
      get the push default; a chain of the table gets exactly its entry. */
  function GetPaymentConfig(origin: Option<ChainId>): (config: PaymentConfig)
    ensures UnsetOrigin(origin) ==> config == DefaultPushConfig
    ensures IsPushOrigin(origin) ==> config == DefaultPushConfig
    ensures IsTableOrigin(origin) ==> config == PaymentConfigByChain[origin.value.chain]
    ensures !IsTableOrigin(origin) ==> config == DefaultPushConfig
    ensures config.tokenAccessor.Some? <==> IsTableOrigin(origin)
  {
    if UnsetOrigin(origin) then DefaultPushConfig
    else if IsPushOrigin(origin) then DefaultPushConfig
    else if origin.value.Known? && origin.value.chain in PaymentConfigByChain then
      PaymentConfigByChain[origin.value.chain]
    else DefaultPushConfig
  }

  /** An entry is served while its expiry lies strictly in the future. */
  predicate Fresh(cache: PriceCache, id: string, now: int) {
    id in cache && cache[id].expiresAt > now
  }

  /** `fetchCoingeckoPrice`: a read-through cache. A fresh entry is served without
      a request; otherwise the answer is validated, and a finite price (of any
      sign) is stored until `settledAt + 60 s` and returned. */
  function FetchCoingeckoPrice(cache: PriceCache, id: string, io: PriceIo): (r: Step<real>)
    ensures Fresh(cache, id, io.now) ==> r == Step(cache, Ok(cache[id].value))
    ensures !Fresh(cache, id, io.now) ==> (r.result.Ok? <==> HasFinitePrice(io.fetched))
    ensures !Fresh(cache, id, io.now) && HasFinitePrice(io.fetched) ==>
      r.result == Ok(io.fetched.usd.n.v)
      && r.cache == cache[id := CachedPrice(io.fetched.usd.n.v, io.settledAt + PriceCacheTtlMs)]
    ensures !Fresh(cache, id, io.now) && !HasFinitePrice(io.fetched) ==> r.cache == cache
    ensures forall k :: k != id ==> (k in r.cache <==> k in cache)
    ensures forall k :: k != id && k in cache ==> r.cache[k] == cache[k]
  {
    if Fresh(cache, id, io.now) then Step(cache, Ok(cache[id].value))
    else
      match io.fetched
      case Rejected => Step(cache, Err(FetchFailed(id)))
      case HttpError(status) => Step(cache, Err(HttpFailed(id, status)))
      case HttpOk(usd) =>
        if usd.Number? && usd.n.IsFinite() then
          Step(cache[id := CachedPrice(usd.n.v, io.settledAt + PriceCacheTtlMs)], Ok(usd.n.v))
        else Step(cache, Err(InvalidPricePayload(id)))
  }

  /** A stored price is served, without a request, to any lookup strictly before
      its expiry, and never at or after it. */
  lemma FetchedPriceServedUntilExpiry(cache: PriceCache, id: string, io: PriceIo, later: PriceIo)
    requires !Fresh(cache, id, io.now) && HasFinitePrice(io.fetched)
    ensures later.now < io.settledAt + PriceCacheTtlMs ==>
      FetchCoingeckoPrice(FetchCoingeckoPrice(cache, id, io).cache, id, later).result == Ok(io.fetched.usd.n.v)
    ensures later.now >= io.settledAt + PriceCacheTtlMs ==>
      FetchCoingeckoPrice(FetchCoingeckoPrice(cache, id, io).cache, id, later).result.Ok?
      == HasFinitePrice(later.fetched)
  {
    var first := FetchCoingeckoPrice(cache, id, io);
    assert first.cache[id] == CachedPrice(io.fetched.usd.n.v, io.settledAt + PriceCacheTtlMs);
  }

  /** `Math.min(decimals, 8)`: the number of fraction digits kept by `toFixed`. */
  function FixedDigits(decimals: nat): (d: nat)
    ensures d <= 8 && d <= decimals
    ensures d == 8 || d == decimals
  {
    if decimals < 8 then decimals else 8
  }

  /** `calculateAmountFromUsd`: the cached or fetched price must be positive; the
      amount is `usd / price`, rendered with at most 8 fraction digits and parsed
      into base units. */
  function CalculateAmountFromUsd(cache: PriceCache, usd: Num, decimals: nat, coingeckoId: string,
                                  io: PriceIo, codec: UnitCodec): (r: Step<int>)
    ensures r.cache == FetchCoingeckoPrice(cache, coingeckoId, io).cache
    ensures var price := FetchCoingeckoPrice(cache, coingeckoId, io).result;
      r.result.Ok? <==>
        price.Ok? && price.value > 0.0
        && codec.parseUnits(codec.fixedQuotient(usd, price.value, FixedDigits(decimals)), decimals).Some?
    ensures var price := FetchCoingeckoPrice(cache, coingeckoId, io).result;
      r.result.Ok? ==>
        r.result.value == codec.parseUnits(codec.fixedQuotient(usd, price.value, FixedDigits(decimals)), decimals).value
    ensures var price := FetchCoingeckoPrice(cache, coingeckoId, io).result;
      price.Ok? && price.value <= 0.0 ==> r.result == Err(NonPositivePrice(coingeckoId))
  {
    var fetched := FetchCoingeckoPrice(cache, coingeckoId, io);
    match fetched.result
    case Err(e) => Step(fetched.cache, Err(e))
    case Ok(price) =>
      if price <= 0.0 then Step(fetched.cache, Err(NonPositivePrice(coingeckoId)))
      else
        match codec.parseUnits(codec.fixedQuotient(usd, price, FixedDigits(decimals)), decimals)
        case None => Step(fetched.cache, Err(UnitsUnparseable))
        case Some(amount) => Step(fetched.cache, Ok(amount))
  }

  /** `resolveMoveableToken`: the registry entry for the accessor, when there is
      a client, an accessor, a registry and an entry. */
  function ResolveMoveableToken(client: Option<Client>, accessor: Option<TokenAccessor>): (token: Option<MoveableToken>)
    ensures token.Some? <==>
      client.Some? && accessor.Some? && client.value.registry.Some?
      && accessor.value in client.value.registry.value
    ensures token.Some? ==> token.value == client.value.registry.value[accessor.value]
  {
    if client.None? || accessor.None? then None
    else
      match client.value.registry
      case None => None
      case Some(registry) =>
        if accessor.value in registry then Some(registry[accessor.value]) else None
  }

  /** `provided ?? PLATFORM_TREASURY_ADDRESS`: an empty provided address is kept. */
  function ChosenTreasury(provided: Option<string>, configured: string): string {
    provided.GetOr(configured)
  }

  /** `ensureTreasuryAddress`: the provided address if there is one, else the
      configured one; it throws exactly when the chosen address is empty. */
  function EnsureTreasuryAddress(provided: Option<string>, configured: string): (r: Result<string, FeeError>)
    ensures provided.Some? ==> (r.Ok? <==> provided.value != [])
    ensures provided.None? ==> (r.Ok? <==> configured != [])
    ensures r.Ok? ==> r.value == (if provided.Some? then provided.value else configured)
    ensures r.Err? ==> r.error == TreasuryNotConfigured
  {
    var address := ChosenTreasury(provided, configured);
    if address == [] then Err(TreasuryNotConfigured) else Ok(address)
  }

  /** `Math.min(decimals, 6)`: the fraction digits shown in a quote. */
  function DisplayPrecision(decimals: nat): (p: nat)
    ensures p <= 6 && p <= decimals
    ensures p == 6 || p == decimals
  {
    if decimals < 6 then decimals else 6
  }

  /** `formatTokenAmount`: the amount with at most 6 fraction digits, then a space
      and the symbol. */
  function FormatTokenAmount(amount: int, decimals: nat, symbol: string, codec: UnitCodec): (text: string)
    ensures EndsWith(text, " " + symbol)
    ensures text[..|text| - |symbol| - 1] == codec.formatUnits(amount, decimals, DisplayPrecision(decimals))
  {
    var formatted := codec.formatUnits(amount, decimals, DisplayPrecision(decimals));
    var text := formatted + " " + symbol;
    assert text == formatted + (" " + symbol);
    EndsWithConcat(formatted, " " + symbol);
    assert text[..|formatted|] == formatted;
    text
  }

  /** The shape every quote has, whichever branch built it. */
  predicate WellFormedQuote(q: Quote, usd: Num, treasury: string, codec: UnitCodec) {
    && q.usdAmount == usd
    && q.treasuryAddress == treasury
    && q.params.to == treasury
    && treasury != []
    && (q.params.value.Some? <==> q.params.funds.None?)
    && (q.params.value.Some? ==> q.params.value.value == q.amount)
    && (q.params.funds.Some? ==> q.params.funds.value.amount == q.amount)
    && q.displayAmount == FormatTokenAmount(q.amount, q.decimals, q.symbol, codec)
    && EndsWith(q.displayAmount, " " + q.symbol)
  }

  /** A native-value quote to the treasury. */
  function NativeQuote(usd: Num, symbol: string, decimals: nat, amount: int, treasury: string, codec: UnitCodec): (q: Quote)
    requires treasury != []
    ensures WellFormedQuote(q, usd, treasury, codec)
    ensures q.params.value == Some(amount) && q.symbol == symbol && q.decimals == decimals
  {
    Quote(usd, symbol, decimals, amount, FormatTokenAmount(amount, decimals, symbol, codec), treasury,
          TxParams(treasury, Some(amount), None))
  }

  /** The catch branch: the USD price string read as an amount of the push
      token, sent as a native value. Parsing it can itself throw, and that
      escapes. */
  function FallbackQuote(usd: Num, treasury: string, priceUsd: string, codec: UnitCodec): (r: Result<Quote, FeeError>)
    requires treasury != []
    ensures r.Ok? <==> ParseNativeTokenAmount(priceUsd, codec).Some?
    ensures r.Ok? ==> WellFormedQuote(r.value, usd, treasury, codec)
    ensures r.Ok? ==> r.value.symbol == "PC" && r.value.decimals == 18
    ensures r.Ok? ==> r.value.amount == ParseNativeTokenAmount(priceUsd, codec).value
    ensures r.Ok? ==> r.value.params.value == Some(r.value.amount)
    ensures r.Err? ==> r.error == UnitsUnparseable
  {
    match ParseNativeTokenAmount(priceUsd, codec)
    case None => Err(UnitsUnparseable)
    case Some(amount) =>
      Ok(NativeQuote(usd, DefaultPushConfig.symbol, DefaultPushConfig.decimals, amount, treasury, codec))
  }

  /** `resolvePlatformFeeQuote`: a treasury check that escapes, then a priced
      quote (native value for a push-chain origin, registry token funds for an
      external one) or, on any failure while pricing, the fallback quote.
      `priceUsd` is `SUBSCRIPTION_PRICE_USD`, `configuredTreasury` is
      `PLATFORM_TREASURY_ADDRESS`. */
  function ResolvePlatformFeeQuote(req: FeeRequest, configuredTreasury: string, priceUsd: string,
                                   cache: PriceCache, io: PriceIo, codec: UnitCodec): (r: Step<Quote>)
    // the treasury guard runs first and is not caught: no price is looked up
    ensures ChosenTreasury(req.treasuryAddress, configuredTreasury) == [] ==>
      r == Step(cache, Err(TreasuryNotConfigured))
    // every quote, from any branch, goes to the chosen treasury and moves `amount`
    ensures r.result.Ok? ==>
      WellFormedQuote(r.result.value, codec.numberOf(priceUsd), ChosenTreasury(req.treasuryAddress, configuredTreasury), codec)
    // the only other escaping error is an unparseable fallback amount
    ensures r.result.Err? ==>
      r.result.error == TreasuryNotConfigured || r.result.error == UnitsUnparseable
    // pricing only touches the entry of the config's price id
    ensures ChosenTreasury(req.treasuryAddress, configuredTreasury) != [] ==>
      r.cache == FetchCoingeckoPrice(cache, GetPaymentConfig(req.originChain).coingeckoId, io).cache
    // a `funds` transfer is built only for a chain of the table, with its registry token
    ensures r.result.Ok? && r.result.value.params.funds.Some? ==>
      IsTableOrigin(req.originChain)
      && Some(r.result.value.params.funds.value.token)
         == ResolveMoveableToken(req.client, GetPaymentConfig(req.originChain).tokenAccessor)
      && r.result.value.symbol == GetPaymentConfig(req.originChain).symbol
      && r.result.value.decimals == GetPaymentConfig(req.originChain).decimals
    // a native `value` transfer is either priced in PC on a push chain or the fallback
    ensures r.result.Ok? && r.result.value.params.value.Some? ==>
      r.result.value.symbol == "PC" && r.result.value.decimals == 18
  {
    var usdAmount := codec.numberOf(priceUsd);
    match EnsureTreasuryAddress(req.treasuryAddress, configuredTreasury)
    case Err(e) => Step(cache, Err(e))
    case Ok(treasury) =>
      var config := GetPaymentConfig(req.originChain);
      var priced := CalculateAmountFromUsd(cache, usdAmount, config.decimals, config.coingeckoId, io, codec);
      match priced.result
      case Err(_) => Step(priced.cache, FallbackQuote(usdAmount, treasury, priceUsd, codec))
      case Ok(amount) =>
        if IsPushOrigin(req.originChain) then
          Step(priced.cache, Ok(NativeQuote(usdAmount, config.symbol, config.decimals, amount, treasury, codec)))
        else
          match ResolveMoveableToken(req.client, config.tokenAccessor)
          case None => Step(priced.cache, FallbackQuote(usdAmount, treasury, priceUsd, codec))
          case Some(token) =>
            Step(priced.cache, Ok(Quote(usdAmount, config.symbol, config.decimals, amount,
                                        FormatTokenAmount(amount, config.decimals, config.symbol, codec),
                                        treasury, TxParams(treasury, None, Some(Funds(amount, token))))))
  }

  /** The amount a successful pricing step would produce for a request. */
  function PricedAmount(req: FeeRequest, priceUsd: string, cache: PriceCache, io: PriceIo, codec: UnitCodec): Result<int, FeeError> {
    var config := GetPaymentConfig(req.originChain);
    CalculateAmountFromUsd(cache, codec.numberOf(priceUsd), config.decimals, config.coingeckoId, io, codec).result
  }

  /** A push-chain origin whose pricing succeeds gets a native transfer of the
      priced PC amount, with no `funds`. */
  lemma PushOriginGetsNativeValue(req: FeeRequest, configuredTreasury: string, priceUsd: string,
                                  cache: PriceCache, io: PriceIo, codec: UnitCodec)
    requires ChosenTreasury(req.treasuryAddress, configuredTreasury) != []
    requires IsPushOrigin(req.originChain)
    requires PricedAmount(req, priceUsd, cache, io, codec).Ok?
    ensures var r := ResolvePlatformFeeQuote(req, configuredTreasury, priceUsd, cache, io, codec);
      r.result.Ok? && r.result.value.params.funds.None?
      && r.result.value.params.value == Some(PricedAmount(req, priceUsd, cache, io, codec).value)
      && r.result.value.symbol == "PC"
      && r.result.value.displayAmount
         == FormatTokenAmount(PricedAmount(req, priceUsd, cache, io, codec).value, 18, "PC", codec)
  {
  }

  /** An external origin whose pricing succeeds and whose token resolves gets a
      `funds` transfer of that token, with no `value`. */
  lemma ExternalOriginGetsFunds(req: FeeRequest, configuredTreasury: string, priceUsd: string,
                                cache: PriceCache, io: PriceIo, codec: UnitCodec)
    requires ChosenTreasury(req.treasuryAddress, configuredTreasury) != []
    requires !IsPushOrigin(req.originChain)
    requires PricedAmount(req, priceUsd, cache, io, codec).Ok?
    requires ResolveMoveableToken(req.client, GetPaymentConfig(req.originChain).tokenAccessor).Some?
    ensures var r := ResolvePlatformFeeQuote(req, configuredTreasury, priceUsd, cache, io, codec);
      r.result.Ok? && r.result.value.params.value.None?
      && r.result.value.params.funds
         == Some(Funds(PricedAmount(req, priceUsd, cache, io, codec).value,
                       ResolveMoveableToken(req.client, GetPaymentConfig(req.originChain).tokenAccessor).value))
      && r.result.value.displayAmount
         == FormatTokenAmount(PricedAmount(req, priceUsd, cache, io, codec).value,
                              GetPaymentConfig(req.originChain).decimals, GetPaymentConfig(req.originChain).symbol, codec)
  {
  }

  /** Failed pricing, or an unresolvable token for a non-push origin, yields
      exactly the fallback quote. */
  lemma FailuresFallBack(req: FeeRequest, configuredTreasury: string, priceUsd: string,
                         cache: PriceCache, io: PriceIo, codec: UnitCodec)
    requires ChosenTreasury(req.treasuryAddress, configuredTreasury) != []
    requires PricedAmount(req, priceUsd, cache, io, codec).Err?
      || (!IsPushOrigin(req.originChain)
          && ResolveMoveableToken(req.client, GetPaymentConfig(req.originChain).tokenAccessor).None?)
    ensures ResolvePlatformFeeQuote(req, configuredTreasury, priceUsd, cache, io, codec).result
      == FallbackQuote(codec.numberOf(priceUsd), ChosenTreasury(req.treasuryAddress, configuredTreasury), priceUsd, codec)
  {
  }

  /** An unset origin, or one that is neither a push chain nor in the table, is
      priced in PC but has no token accessor, so it always ends in the fallback. */
  lemma NonTableOriginsFallBack(req: FeeRequest, configuredTreasury: string, priceUsd: string,
                                cache: PriceCache, io: PriceIo, codec: UnitCodec)
    requires ChosenTreasury(req.treasuryAddress, configuredTreasury) != []
    requires !IsPushOrigin(req.originChain) && !IsTableOrigin(req.originChain)
    ensures ResolvePlatformFeeQuote(req, configuredTreasury, priceUsd, cache, io, codec).result
      == FallbackQuote(codec.numberOf(priceUsd), ChosenTreasury(req.treasuryAddress, configuredTreasury), priceUsd, codec)
  {
    assert GetPaymentConfig(req.originChain).tokenAccessor.None?;
    FailuresFallBack(req, configuredTreasury, priceUsd, cache, io, codec);
  }

  /** A non-positive price that arrives finite is still cached, and the quote
      falls back while it stays fresh. */
  lemma NonPositivePriceFallsBack(req: FeeRequest, configuredTreasury: string, priceUsd: string,
                                  cache: PriceCache, io: PriceIo, codec: UnitCodec)
    requires ChosenTreasury(req.treasuryAddress, configuredTreasury) != []
    requires !Fresh(cache, GetPaymentConfig(req.originChain).coingeckoId, io.now)
    requires HasFinitePrice(io.fetched) && io.fetched.usd.n.v <= 0.0
    ensures var r := ResolvePlatformFeeQuote(req, configuredTreasury, priceUsd, cache, io, codec);
      r.result == FallbackQuote(codec.numberOf(priceUsd), ChosenTreasury(req.treasuryAddress, configuredTreasury), priceUsd, codec)
      && GetPaymentConfig(req.originChain).coingeckoId in r.cache
      && r.cache[GetPaymentConfig(req.originChain).coingeckoId].value == io.fetched.usd.n.v
  {
    FailuresFallBack(req, configuredTreasury, priceUsd, cache, io, codec);
  }
}

=== FILE: price_feed.dfy ===
/** The answer of the price API (`/simple/price?ids=<id>&vs_currencies=usd`)
    as the two price caches see it. The HTTP request itself is not modelled:
    its outcome is an input. */
module PriceFeed {
  import opened Js

  /** What `data[id]?.usd` holds in a parsed response body. */
  datatype UsdField = NotANumber | Number(n: Num)

  /** How the request ended. `Rejected` covers a network failure and a body
      that is not JSON; `HttpError` a response whose `ok` is false. */
  datatype HttpOutcome = Rejected | HttpError(status: int) | HttpOk(usd: UsdField)

  /** The finite price an outcome carries, if any (`typeof price === 'number'
      && Number.isFinite(price)`). */
  predicate HasFinitePrice(o: HttpOutcome) {
    o.HttpOk? && o.usd.Number? && o.usd.n.IsFinite()
  }
}

=== FILE: price_label.dfy ===
/** The price label of a group: free, a USD amount or a native-token amount,
    optionally followed by the billing cadence. The two `Intl` number
    formatters are injected functions. */
module PriceLabel {
  import opened Outcomes
  import opened Js

  /** `BillingCadence`: `'free' | 'monthly' | undefined` */
  datatype Cadence = FreeCadence | Monthly | NoCadence

  /** `usd(price, rate)` is `USD_FORMATTER.format(price * rate)`;
      `token(price)` is `TOKEN_FORMATTER.format(price)`. */
  datatype Formatters = Formatters(usd: (Num, Num) -> string, token: Num -> string)

  /** `options`: both fields absent when `options` itself is. */
  datatype LabelOptions = LabelOptions(includeCadence: Option<bool>, usdRate: Option<Num>)

  /** `!price || price <= 0 || cadence === 'free'` */
  predicate IsFreePrice(price: Option<Num>, cadence: Cadence) {
    price.None? || !price.value.Truthy() || price.value.NonPositive() || cadence == FreeCadence
  }

  /** `typeof usdRate === 'number' && usdRate > 0` (null and undefined fail it). */
  predicate UsableRate(usdRate: Option<Num>) {
    usdRate.Some? && usdRate.value.Positive()
  }

  /** The amount part of a label: the USD value when a rate is usable, else the
      token amount and the native symbol. */
  function AmountLabel(price: Num, usdRate: Option<Num>, nativeSymbol: string, fmt: Formatters): (amount: string)
    ensures UsableRate(usdRate) ==> amount == fmt.usd(price, usdRate.value)
    ensures !UsableRate(usdRate) ==> amount == fmt.token(price) + " " + nativeSymbol
  {
    if UsableRate(usdRate) then fmt.usd(price, usdRate.value)
    else fmt.token(price) + " " + nativeSymbol
  }

  /** `cadence === 'monthly' || !cadence ? 'month' : cadence` */
  function CadenceLabel(cadence: Cadence): (unit: string)
    ensures unit == "free" <==> cadence == FreeCadence
    ensures cadence != FreeCadence ==> unit == "month"
  {
    match cadence
    case Monthly => "month"
    case NoCadence => "month"
    case FreeCadence => "free"
  }

  /** `formatGroupPriceLabel`. `includeCadence` defaults to true. */
  function FormatGroupPriceLabel(price: Option<Num>, cadence: Cadence, options: LabelOptions,
                                 nativeSymbol: string, fmt: Formatters): (text: string)
    ensures IsFreePrice(price, cadence) ==>
      text == (if options.includeCadence.GetOr(true) then "Free" else "Join for free")
    ensures !IsFreePrice(price, cadence) && !options.includeCadence.GetOr(true) ==>
      text == AmountLabel(price.value, options.usdRate, nativeSymbol, fmt)
    ensures !IsFreePrice(price, cadence) && options.includeCadence.GetOr(true) ==>
      text == AmountLabel(price.value, options.usdRate, nativeSymbol, fmt) + "/month"
  {
    var includeCadence := options.includeCadence.GetOr(true);
    if IsFreePrice(price, cadence) then
      if includeCadence then "Free" else "Join for free"
    else
      var amount := AmountLabel(price.value, options.usdRate, nativeSymbol, fmt);
      if !includeCadence then amount
      else amount + "/" + CadenceLabel(cadence)
  }

  /** With the cadence shown, a label reads "Free" exactly for a free group, and
      every other label ends in "/month"; the "/free" suffix cannot occur. */
  lemma CadenceLabelsDistinguishFree(price: Option<Num>, cadence: Cadence, rate: Option<Num>,
                                                        nativeSymbol: string, fmt: Formatters)
    ensures var text := FormatGroupPriceLabel(price, cadence, LabelOptions(None, rate), nativeSymbol, fmt);
      (text == "Free" <==> IsFreePrice(price, cadence))
      && (!IsFreePrice(price, cadence) ==> EndsWith(text, "/month"))
  {
    var text := FormatGroupPriceLabel(price, cadence, LabelOptions(None, rate), nativeSymbol, fmt);
    if !IsFreePrice(price, cadence) {
      var amount := AmountLabel(price.value, rate, nativeSymbol, fmt);
      EndsWithConcat(amount, "/month");
      assert text[|text| - 1] == 'h';
    }
  }

  /** Without a usable USD rate, a priced label names the native token:
      amount, space, symbol, and the cadence suffix when it is shown. */
  lemma TokenLabelShape(price: Option<Num>, cadence: Cadence, options: LabelOptions,
                                           nativeSymbol: string, fmt: Formatters)
    requires !IsFreePrice(price, cadence) && !UsableRate(options.usdRate)
    ensures var text := FormatGroupPriceLabel(price, cadence, options, nativeSymbol, fmt);
      options.includeCadence.GetOr(true) ==> EndsWith(text, " " + nativeSymbol + "/month")
    ensures var text := FormatGroupPriceLabel(price, cadence, options, nativeSymbol, fmt);
      !options.includeCadence.GetOr(true) ==> EndsWith(text, " " + nativeSymbol)
  {
    var t := fmt.token(price.value);
    assert t + " " + nativeSymbol + "/month" == t + (" " + nativeSymbol + "/month");
    assert t + " " + nativeSymbol == t + (" " + nativeSymbol);
    EndsWithConcat(t, " " + nativeSymbol + "/month");
    EndsWithConcat(t, " " + nativeSymbol);
  }
}

=== FILE: renew_subscription.dfy ===
/** Renewing a group subscription: three guards, a balance check, a native
    transfer of the subscription price to the treasury, and the backend
    mutation. The RPC and mutation results are inputs. */
module RenewSubscription {
  import opened Outcomes

  datatype RenewError =
    | NoGroup
    | NoWallet
    | NoTreasury
    | InsufficientBalance
    | Rethrown  // a balance read, transaction or mutation that threw

  datatype Transaction = Transaction(to: string, value: int)

  /** `{ endsOn, txHash }` */
  datatype Receipt = Receipt(endsOn: Option<int>, txHash: string)

  /** The results the outside world gives: the balance read, the transaction
      hash once it is mined, and what the mutation returns (None for undefined). */
  datatype RenewIo = RenewIo(balance: Attempt<int>, txHash: Attempt<string>, mutation: Attempt<Option<int>>)

  /** What a `renew` call did: its result, whether it read the balance, the
      transaction `sendTransaction` was called with if any (whether or not the
      send or its mining then succeeded), and the `isTransacting` flag it raised and
      left behind. */
  datatype RenewRun = RenewRun(
    result: Result<Receipt, RenewError>,
    balanceRead: bool,
    sent: Option<Transaction>,
    transactingRaised: bool,
    transactingAtExit: bool
  )

  /** A truthy string: present and non-empty. */
  predicate Present(s: Option<string>) {
    s.Some? && s.value != []
  }

  /** The three guards, in source order; None when all pass. */
  function Guard(groupId: Option<string>, address: Option<string>, treasury: string): (e: Option<RenewError>)
    ensures !Present(groupId) ==> e == Some(NoGroup)
    ensures Present(groupId) && !Present(address) ==> e == Some(NoWallet)
    ensures Present(groupId) && Present(address) && treasury == [] ==> e == Some(NoTreasury)
    ensures e.None? <==> Present(groupId) && Present(address) && treasury != []
  {
    if !Present(groupId) then Some(NoGroup)
    else if !Present(address) then Some(NoWallet)
    else if treasury == [] then Some(NoTreasury)
    else None
  }

  /** `renew`. `price` is `SUBSCRIPTION_PRICE_AMOUNT` and `treasury` is
      `PLATFORM_TREASURY_ADDRESS`. */
  function Renew(groupId: Option<string>, address: Option<string>, treasury: string,
                 price: int, io: RenewIo): (run: RenewRun)
    // a failing guard throws before any read or flag change
    ensures Guard(groupId, address, treasury).Some? ==>
      run == RenewRun(Err(Guard(groupId, address, treasury).value), false, None, false, false)
    // past the guards the balance is read, and the flag is raised and always reset
    ensures Guard(groupId, address, treasury).None? ==> run.balanceRead && run.transactingRaised
    ensures !run.transactingAtExit
    // a short balance throws and sends nothing
    ensures io.balance.Returned? && io.balance.value < price ==> run.sent.None?
    ensures Guard(groupId, address, treasury).None? && io.balance.Returned? && io.balance.value < price ==>
      run.result == Err(InsufficientBalance)
    // the only transaction ever sent pays exactly the price to the treasury
    ensures run.sent.Some? ==> run.sent.value == Transaction(treasury, price)
    ensures run.sent.Some? ==> io.balance.Returned? && io.balance.value >= price
    // a funded renewal past the guards sends the payment, even when a later step fails
    ensures Guard(groupId, address, treasury).None? && io.balance.Returned? && io.balance.value >= price ==>
      run.sent == Some(Transaction(treasury, price))
    // a failed balance read is rethrown before anything is sent
    ensures Guard(groupId, address, treasury).None? && io.balance.Threw? ==>
      run.result == Err(Rethrown) && run.sent.None?
    // a sent payment whose hash or mutation fails is rethrown
    ensures run.sent.Some? && !(io.txHash.Returned? && io.mutation.Returned?) ==> run.result == Err(Rethrown)
    // success needs every call to succeed and reports the mined hash
    ensures run.result.Ok? ==>
      run.sent.Some? && io.txHash.Returned? && io.mutation.Returned?
      && run.result.value == Receipt(io.mutation.value, io.txHash.value)
  {
    match Guard(groupId, address, treasury)
    case Some(e) => RenewRun(Err(e), false, None, false, false)
    case None =>
      match io.balance
      case Threw => RenewRun(Err(Rethrown), true, None, true, false)
      case Returned(balance) =>
        if balance < price then RenewRun(Err(InsufficientBalance), true, None, true, false)
        else
          var tx := Transaction(treasury, price);
          match io.txHash
          case Threw => RenewRun(Err(Rethrown), true, Some(tx), true, false)
          case Returned(hash) =>
            match io.mutation
            case Threw => RenewRun(Err(Rethrown), true, Some(tx), true, false)
            case Returned(endsOn) => RenewRun(Ok(Receipt(endsOn, hash)), true, Some(tx), true, false)
  }

  /** With the guards passed and enough balance, renewing succeeds exactly when
      the transaction and the mutation both succeed; `endsOn` is null when the
      mutation returns nothing. */
  lemma RenewSucceedsIff(groupId: Option<string>, address: Option<string>, treasury: string,
                         price: int, io: RenewIo)
    requires Guard(groupId, address, treasury).None?
    requires io.balance.Returned? && io.balance.value >= price
    ensures Renew(groupId, address, treasury, price, io).result.Ok?
            <==> io.txHash.Returned? && io.mutation.Returned?
    ensures io.mutation == Returned(None) && io.txHash.Returned? ==>
      Renew(groupId, address, treasury, price, io).result == Ok(Receipt(None, io.txHash.value))
  {
  }
}

=== FILE: token_usd_rate.dfy ===
/** The token/USD rate hook: the rate state and its refresh transitions. A
    refresh is split into its start and its settlement; the price lookup's
    outcome is an input. */
module TokenUsdRate {
  import opened Outcomes
  import opened Js
  import DisplayPrices

  /** `rate`, `loading` and the message of `error`. */
  datatype RateState = RateState(rate: Option<real>, loading: bool, error: Option<string>)

  /** What was thrown: an `Error` with its message, or some other value. */
  datatype Thrown = ErrorValue(message: string) | OtherValue

  /** How the awaited `getCoingeckoUsdPrice` call ended. */
  datatype Lookup = Resolved(price: Option<Num>) | Rejected(thrown: Thrown)

  /** The state after a refresh and the value the refresh returns. */
  datatype Refreshed = Refreshed(state: RateState, returned: Option<real>)

  /** `typeof fallbackRate === 'number' && Number.isFinite(fallbackRate)` */
  function FiniteFallback(fallbackRate: Option<Num>): (r: Option<real>)
    ensures r.Some? <==> fallbackRate.Some? && fallbackRate.value.IsFinite()
    ensures r.Some? ==> fallbackRate.value == Finite(r.value)
  {
    if fallbackRate.Some? && fallbackRate.value.IsFinite() then Some(fallbackRate.value.v) else None
  }

  /** The initial state: the fresh cached price, else a finite fallback, else no rate. */
  function Initial(cached: Option<real>, fallbackRate: Option<Num>): (s: RateState)
    ensures cached.Some? ==> s.rate == cached
    ensures cached.None? ==> s.rate == FiniteFallback(fallbackRate)
    ensures !s.loading && s.error.None?
  {
    RateState(if cached.Some? then cached else FiniteFallback(fallbackRate), false, None)
  }

  /** The start of `refresh`: loading on, error cleared, rate kept. */
  function BeginRefresh(s: RateState): (s': RateState)
    ensures s'.loading && s'.error.None? && s'.rate == s.rate
  {
    RateState(s.rate, true, None)
  }

  /** `next && Number.isFinite(next)`: a truthy finite number (0 counts as missing). */
  predicate UsablePrice(price: Option<Num>) {
    price.Some? && price.value.Truthy() && price.value.IsFinite()
  }

  /** The settlement of `refresh` (the `try`/`catch`/`finally`). */
  function FinishRefresh(s: RateState, lookup: Lookup, fallbackRate: Option<Num>): (r: Refreshed)
    ensures !r.state.loading
    ensures lookup.Resolved? && UsablePrice(lookup.price) ==>
      r.returned == Some(lookup.price.value.v) && r.state.rate == r.returned
    ensures lookup.Resolved? && !UsablePrice(lookup.price) ==>
      r.returned == FiniteFallback(fallbackRate) && r.state.rate == r.returned
    ensures lookup.Resolved? ==> r.state.error == s.error
    ensures lookup.Rejected? ==> r.returned == FiniteFallback(fallbackRate)
    ensures lookup.Rejected? ==> r.state.rate == (if r.returned.Some? then r.returned else s.rate)
    ensures lookup.Rejected? ==>
      r.state.error == Some(if lookup.thrown.ErrorValue? then lookup.thrown.message else "Failed to fetch price")
  {
    match lookup
    case Resolved(next) =>
      if UsablePrice(next) then Refreshed(RateState(Some(next.value.v), false, s.error), Some(next.value.v))
      else
        var fb := FiniteFallback(fallbackRate);
        Refreshed(RateState(fb, false, s.error), fb)
    case Rejected(thrown) =>
      var message := if thrown.ErrorValue? then thrown.message else "Failed to fetch price";
      var fb := FiniteFallback(fallbackRate);
      Refreshed(RateState(if fb.Some? then fb else s.rate, false, Some(message)), fb)
  }

  /** A whole refresh: it ends not loading; its error is set only by a rejected
      lookup; the rate it leaves is the value it returns, except after a
      rejection with no finite fallback, which keeps the old rate and returns null. */
  function Refresh(s: RateState, lookup: Lookup, fallbackRate: Option<Num>): (r: Refreshed)
    ensures !r.state.loading
    ensures r.state.error.Some? <==> lookup.Rejected?
    ensures r.state.rate == r.returned
            || (lookup.Rejected? && FiniteFallback(fallbackRate).None?
                && r.returned.None? && r.state.rate == s.rate)
    ensures r.returned.Some? ==>
      r.returned == FiniteFallback(fallbackRate) || (lookup.Resolved? && UsablePrice(lookup.price))
  {
    FinishRefresh(BeginRefresh(s), lookup, fallbackRate)
  }

  /** The auto-fetch effect fires only when enabled (default off) and no rate is set. */
  function ShouldAutoFetch(autoFetch: Option<bool>, rate: Option<real>): (fire: bool)
    ensures fire <==> autoFetch == Some(true) && rate.None?
  {
    autoFetch.GetOr(false) && rate.None?
  }

  /** The display-price client never rejects and only ever yields positive
      prices, so a refresh fed by it sets exactly that price, or the fallback
      when it yields null, and never records an error. */
  lemma RefreshFromDisplayPrice(s: RateState, price: Option<real>, fallbackRate: Option<Num>)
    requires price.Some? ==> price.value > 0.0
    ensures var r := Refresh(s, Resolved(if price.Some? then Some(Finite(price.value)) else None), fallbackRate);
      r.state.error.None?
      && r.state.rate == (if price.Some? then price else FiniteFallback(fallbackRate))
  {
  }

  /** The initial rate read from a display cache: a fresh entry wins over the fallback. */
  lemma InitialFromDisplayCache(cache: DisplayPrices.State, id: string, now: int, fallbackRate: Option<Num>)
    requires id in cache.priceCache && cache.priceCache[id].expiresAt > now
    ensures Initial(DisplayPrices.GetCachedUsdPrice(cache, id, now), fallbackRate).rate
            == Some(cache.priceCache[id].value)
  {
  }
}
